=== FILE: README.md ===
# MVPS prompt bookkeeping, modelled in Dafny

This project models the discrete bookkeeping of `mvps.py`, a CLIP-based
zero-shot anomaly detector that prompts both the text and the visual
transformer at several scales. Every tensor becomes a sequence of opaque tokens
(`Tokens.Tok`) along its sequence axis. Batch and channel axes are dropped. The
frozen transformer blocks become opaque length-preserving functions
(`Tokens.Block`). Python exceptions become `Tokens.Result` errors. Where an
object attribute is updated before an exception, the new state is returned
alongside the error.

Modules, following the program's classes:

- `Tokens` holds the token abstraction, the error kinds, `Result` and `Option`,
  and Python's slicing rule. A negative stop counts from the end, and bounds
  are clamped.
- `VisualPrompt` is `PromptLayer.forward_visual`. It appends a static block
  and a scale block at layer 0. At later layers it cuts and re-appends the last
  L tokens. It keeps the `prompt_id` / `prompt_layer_id` counter, and its
  returned tokens drop the trailing 2L.
- `TextPrompt` is `MutilPrompt_TextPromptLayer.forward` plus `reset_memory_prompt`,
  and the prompt-id loop of `MVPS.encode_text`. It splices the window
  `[1, 1 + L)` and records each injected context in the replay buffer
  `memory_prompt`.
- `TextEmbedding` covers the placeholder string, the normal and abnormal
  sentences, and `tokenize`'s padding, truncation and too-long error.
- `Clustering` covers `MVPCL`: the cluster-count schedule and its
  construction-time check, the top-k selection size, and the grouping of the
  selected patches by cluster label.
- `Projection` covers the shape logic of `ProjectLayer.forward`.
- `Fusion` covers the control flow of `HMPT.forward`.
- `Pipeline` covers the layer loop of `MVPS.encode_image` with its prompt-id
  counter, the slicing of the text replay buffer into visual scale prompts,
  and `extract_feat` from text encoding to buffer reset.

Some behaviours the model keeps exactly as the code has them:

- The visual counter starts at 1. So with a depth of at least 3, and layer 1
  not an output layer, the first `encode_image` call installs
  `scale_prompt[0][1]` at layer 1.
- A call stores the prompt id its last block received: the number of output
  layers before that block. When this number is not 0, the next call resets
  the counter and installs `scale_prompt[0][0]` at layer 1. When it is 0 (a
  single output layer at the last block, say), the counter stays at
  `depth - 1` after the first call. From the second call on, no scale block
  is installed at any later layer, and each of them keeps its static block.
- When the last output layer is not the last block, the next block runs with
  prompt id `prompt_num`. That resets the counter, and with a depth of at
  least 2 indexing `scale_prompt[prompt_num]` raises. The model reports this
  as a missing entry.
- Layer 0 always reads `scale_prompt[0][0]`.
- At a later layer below the depth, the fresh static block is overwritten by
  the scale block whenever the scale update fires, because both use the same
  last-L window.
- The carried (raw) visual sequence keeps both prompt blocks at every layer
  after 0, including layers at or past the depth. Only the returned tokens drop
  them.
- `encode_text` carries the sequence from one prompt id to the next without
  resetting it.
- A buffer that was not cleared, because an earlier pass failed after encoding
  text, decides the next scale prompts (`Pipeline.ScalePromptsGrid`).

## Model

| member | source | states |
|---|---|---|
| `Tokens.Clamp` | mvps.py:106 | a slice bound is normalised as Python does: negative counts from the end, then clamped to `0 .. n` |
| `Tokens.SliceNegativeStop` | mvps.py:134 | a negative stop, as `len(x) - 2L` is when `len(x) < 2L`, keeps the first `len(x) + stop` tokens: the result is empty exactly when `len(x) + stop <= 0`, i.e. `len(x) <= L`, and when `L < len(x) < 2L` it keeps the first `2 len(x) - 2L` tokens |
| `VisualPrompt.Initial` | mvps.py:70-72 | a new prompter has counter 1, stored prompt id 0 and no scale prompt |
| `VisualPrompt.Retarget` | mvps.py:112-114 | a new prompt id is stored and resets the counter to 0; the same id changes nothing |
| `VisualPrompt.ForwardKeepsScale` | mvps.py:80-138 | no layer call changes the installed scale prompts, even a failing one |
| `VisualPrompt.DisabledPassThrough` | mvps.py:128-138 | a disabled prompter adds nothing, its raw and clean outputs coincide, and its state is untouched |
| `VisualPrompt.FirstLayerSucceeds` | mvps.py:98-118 | layer 0 succeeds iff the depth is positive and both the static block and `scale_prompt[0][0]` exist |
| `VisualPrompt.FirstLayerAppends` | mvps.py:101-118 | layer 0 appends the static block and then `scale_prompt[0][0]`, whatever the prompt id |
| `VisualPrompt.FirstLayerLength` | mvps.py:101-135 | after layer 0 the raw sequence is 2L longer than the input and the clean tokens are its first `len(input)` positions |
| `VisualPrompt.CounterStep` | mvps.py:112-124 | the counter restarts at 0 on a new prompt id and advances by exactly one when the scale block is replaced at a later layer |
| `VisualPrompt.LayerOneScaleBlock` | mvps.py:67-124 | with depth at least 3 and prompt id 0 at layers 0 and 1, a fresh prompter installs `scale_prompt[0][1]` at layer 1, because the counter starts at 1 and layer 0 keeps it; a prompter whose stored prompt id is not 0 is reset and installs `scale_prompt[0][0]` there |
| `VisualPrompt.StuckCounterKeepsStatic` | mvps.py:104-124 | once the counter stands at `depth - 1` and the prompt id stays the stored one, every later layer below the depth keeps its static block in the last L positions, leaves the rest and the state alone, and succeeds |
| `VisualPrompt.CounterBounded` | mvps.py:120-124 | the counter never climbs above `depth - 1` unless it already stood higher |
| `VisualPrompt.LaterLayerWindow` | mvps.py:104-126 | at a later layer only the last L positions change: to the scale block if it fires (overwriting the static block), else to the static block below the depth, else nothing |
| `VisualPrompt.LaterLayerLength` | mvps.py:104-135 | a later layer keeps the raw length and the clean tokens drop its trailing 2L |
| `TextPrompt.KindOf` | mvps.py:293-310 | static and dynamic contexts are selected by 'S' and 'D' in the prompting type, each iff the letter is present |
| `TextPrompt.Initial` | mvps.py:277-279 | a new text prompter has an empty buffer and unset dynamic tables |
| `TextPrompt.ResetMemory` | mvps.py:287-288 | clearing empties the buffer and leaves the dynamic tables alone |
| `TextPrompt.AddBlocks` | mvps.py:297-299 | adding a dynamic and a static block succeeds iff the lengths match or one has length 1; the result has the longer length, and position i sums the operands' position i, a length-1 operand contributing its only token |
| `TextPrompt.ContextLength` | mvps.py:292-310 | with well-shaped prompt tables every context has the prompt length |
| `TextPrompt.SpliceWindow` | mvps.py:312-329 | splicing keeps position 0 and the suffix from `1 + L`, puts the block at `[1, 1 + L)` and keeps the length |
| `TextPrompt.Forward` | mvps.py:290-340 | the buffer grows by the context exactly at enabled layers `0 < indx < depth` whose context exists; a missing resblock and a missing prompt kind raise |
| `TextPrompt.PassThrough` | mvps.py:331-338 | a disabled prompter or a layer at or past the depth only runs the block |
| `TextPrompt.InjectSplices` | mvps.py:312-330 | at layer 0 the summed learnable and first dynamic block is spliced, at `0 < indx < depth` the context |
| `TextPrompt.PassMemory` | mvps.py:617-619 | one prompt id's pass over n layers appends the contexts of layers `1 .. min(n, depth) - 1`, in order |
| `TextPrompt.RunPrompts` | mvps.py:616-620 | a successful encode_text yields one sequence per prompt id and leaves the dynamic tables alone |
| `TextPrompt.LayersKeepPrompts` | mvps.py:618-619 | layers never change the dynamic prompt tables |
| `TextPrompt.EntriesLength` | mvps.py:616-620 | the passes of prompt ids `from ..` append `promptNum - from` rows of `depth - 1` entries |
| `TextPrompt.EntriesAt` | mvps.py:616-620 | entry `j - 1` of row `p` is the context of layer j for prompt id p |
| `TextPrompt.PromptsMemory` | mvps.py:616-620 | a successful encode_text appends exactly the (prompt id, layer) contexts in row-major order |
| `TextPrompt.EntriesDependOnPrompts` | mvps.py:292-310 | the buffered contexts depend on the state only through its dynamic table |
| `TextPrompt.EncodeTextBuffer` | mvps.py:610-620 | one encode_text over at least `depth` layers appends `promptNum * (depth - 1)` entries, entry `p * (depth - 1) + (j - 1)` being the context of layer j for prompt id p |
| `TextPrompt.SlotIsRowMajor` | mvps.py:749-753 | the grid cell `(p, j)` of the reshape is the row-major index `p * (depth - 1) + (j - 1)`, inside the window |
| `TextPrompt.ContextsSucceed` | mvps.py:617-619 | in a successful encode_text every context of every prompt id and prompted layer was computed |
| `TextPrompt.LayerContextSucceeds` | mvps.py:618-619 | in a successful pass every prompted layer's context was computed |
| `TextEmbedding.PlaceholderShape` | mvps.py:155 | the placeholder is `length` copies of "X" separated by single spaces |
| `TextEmbedding.AsList` | mvps.py:162-163 | a single string is treated as a one-element list |
| `TextEmbedding.TokenizeOne` | mvps.py:162-184 | a single string gives one row, present exactly when its wrapped tokens fit, padded or truncated as for a list |
| `TextEmbedding.TokenizeSpec` | mvps.py:160-186 | tokenize succeeds iff every wrapped text fits or is truncated; each row is `context_length` long, zero-padded or truncated with a final end marker; without truncation the error names the first text that does not fit |
| `TextEmbedding.PlaceholderIgnoresText` | mvps.py:168-169 | in placeholder mode any two lists of the same size tokenise alike |
| `TextEmbedding.PlaceholderRowsAgree` | mvps.py:168-186 | in placeholder mode every row is the fitted tokens of the placeholder plus " object" |
| `TextEmbedding.RowsOfFixedTokens` | mvps.py:168-184 | row i in placeholder mode is the fitted placeholder tokens, independent of the texts |
| `TextEmbedding.ReplaceUnderscores` | mvps.py:193 | every underscore becomes a space and nothing else changes |
| `TextEmbedding.Sentences` | mvps.py:189-200 | one "normal " and one "abnormal " sentence per class name, in order |
| `TextEmbedding.StatesShareTokens` | mvps.py:188-203 | the normal and abnormal token batches are identical and succeed iff there are no class names or the placeholder prompt fits in 77 tokens |
| `Clustering.Schedule` | mvps.py:348 | one entry per prompt id, five times its cluster count |
| `Clustering.New` | mvps.py:343-352 | construction succeeds iff there is a prompt id and the last schedule entry is positive |
| `Clustering.ConstructedScheduleIsPositive` | mvps.py:348-352 | with a non-negative decay a constructed clusterer has positive counts at every prompt id |
| `Clustering.NegativeDecayEscapesCheck` | mvps.py:351-352 | the construction-time guard reads only the last entry, so a negative decay passes with a zero-cluster prompt id |
| `Clustering.SelectionSize` | mvps.py:358 | the selection size is `min(L, n_aggregate[prompt_id])` |
| `Clustering.Select` | mvps.py:359-361 | the selected tokens are the patches at the first k ranked positions |
| `Clustering.GroupMembers` | mvps.py:374-375 | a token is in a cluster's group iff a selected position holding it has that label |
| `Clustering.GroupsPartition` | mvps.py:374-377 | when every label names a cluster, the group sizes add up to the selection |
| `Clustering.Prototypes` | mvps.py:374-380 | one group per cluster id, each holding that cluster's members |
| `Clustering.ForwardShape` | mvps.py:354-386 | a successful forward gives each image one group per cluster id, drawn from its most abnormal patches |
| `Projection.Wrap` | mvps.py:41-44 | listed outputs are returned as they are; stacking fails on an empty list or on items of different shapes, and otherwise keeps the items |
| `Projection.ArrayShape` | mvps.py:25-44 | array mode succeeds iff there is an input per replica and, when stacking, at least one replica with projected outputs of one shape; rank-3 inputs lose position 0 and every token goes through its replica's head |
| `Projection.SingleShape` | mvps.py:33-44 | outside array mode there is one output per replica, read from position i of a rank-3 input; stacking fails only on zero replicas |
| `Projection.StackOnlyPackages` | mvps.py:41-44 | stacking changes only the packaging, and succeeds exactly when the listed outputs are non-empty and of one shape |
| `Projection.StackRejects` | mvps.py:41-42 | stacking zero replicas, or rank-3 outputs of lengths 1 and 2, raises a shape error |
| `Fusion.ForwardCases` | mvps.py:406-421 | both returned tokens agree; the last scale returns the global token itself, other scales attend over the adapted token and the scale's patches |
| `Pipeline.ClustererSettings` | mvps.py:533 | MVPS's clusterer exists iff there is an output layer, with ten clusters and a budget of 50 at every prompt id |
| `Pipeline.PromptIdStep` | mvps.py:666-673 | passing layer indx raises the prompt id by one exactly when layer `indx + 1` is an output layer |
| `Pipeline.PromptIdCountsOutputs` | mvps.py:664-673 | with distinct in-range output layers the final prompt id is the number of output layers |
| `Pipeline.ImageStep` | mvps.py:668-676 | a failed run stays failed; a layer adds a patch entry exactly at an output layer |
| `Pipeline.FailureIsFinal` | mvps.py:667-676 | once a layer raises, no later layer runs |
| `Pipeline.EncodeImage` | mvps.py:664-676 | the loop's running counter equals the number of output layers passed, and a successful run holds one patch entry per output layer |
| `Pipeline.RunKeepsScale` | mvps.py:664-676 | the image pass never changes the installed scale prompts |
| `Pipeline.RunStoresPromptId` | mvps.py:664-673 | after a successful enabled run the stored prompt id is the number of output layers before the last block, which decides whether the next call resets the counter |
| `Pipeline.RunLengths` | mvps.py:664-676 | along an enabled run the carried sequence is 2L longer than the input from layer 0 on, and every patch entry has the input's length; a disabled run adds nothing |
| `Pipeline.ScalePromptsGrid` | mvps.py:749-759 | over a full window of equal-length blocks the grid cell `[p][j]` is the mapped buffer entry `p * (depth - 1) + j`, and entries past the window are never read |
| `Pipeline.ScalePromptsNeeds` | mvps.py:749-753 | scale prompts come out only of a full window of equal-length blocks with a prompt id and a prompted layer |
| `Pipeline.ExtractFeat` | mvps.py:739-771 | a disabled text prompter fails; success clears the buffer, yields one text feature per prompt id and state and one patch entry per output layer, and, from an empty buffer over a text tower of at least `depth` blocks, installs the mapped first-pass contexts as scale prompts |
| `Pipeline.ScaleFromFirstPass` | mvps.py:749-761 | from an empty buffer over a text tower of at least `depth` blocks, scale prompt `[p][j - 1]` is the mapped context of layer j for prompt id p from the normal-state pass |
| `Pipeline.GridOfContexts` | mvps.py:749-759 | a window holding one pass's contexts in row-major order yields those contexts, mapped, as the grid |
| `Pipeline.ShallowTextTowerMixesRows` | mvps.py:749-759 | with two prompt ids, depth 3 and two text blocks, scale cell `[0][1]` is the mapped layer-1 context of prompt id 1, not prompt id 0's layer-2 context |

## Left out

- All floating-point tensor work is left out: linear layers, layer norms, softmax, normalisation, means, similarity maps, interpolation and the aggregation formula. Tokens are opaque, and addition is the symbolic `Sum`.
- The frozen CLIP backbone is not modelled. Transformer blocks are opaque length-preserving functions, and embedded inputs (`xNormal`, `xAbnormal`, `image`) are parameters.
- The BPE tokenizer is an opaque function from strings to token ids.
- KMeans is an opaque labelling function, and torch.topk is an opaque ranking of positions. Cluster centres are represented by their member groups, not by their means. KMeans is built without a fixed random state (mvps.py:349), so its labels may differ between calls on the same tokens; the opaque labelling function stands for one such outcome.
- The cross-modal map DPTO and HMPT's adapter and attention are opaque functions.
- `generate_and_set_dynamic_promtps` is not modelled: the dynamic prompt tables are part of the text prompter's input state. The same goes for `visual_text_similarity` and `proj_visual_tokens`, which are numeric only.
- The sentence post-processing in `encode_text` of the embedding layer is left out. It reshapes, normalises and stacks, and its `len(self.prompt_state) != 2` check can never fire.
- Batch and channel axes are dropped, and so are the repeat/expand broadcasting over them. `.half()` casts, `torch.no_grad`, the device and the torch version check are left out too.
- `Pipeline.ScalePrompts` reports a prompt depth of 0 as a shape error. The code would reshape with an inferred dimension instead.
- Pipeline.ExtractFeat reports a disabled text prompter as a missing entry. In the code it is an attribute error, because `memory_prompt` is never created.
- Pipeline.ExtractFeat states the scale-prompt contents only when the buffer was empty on entry. With a stale buffer, `Pipeline.ScalePromptsGrid` shows the stale entries win.
- Pipeline.ExtractFeat states the scale-prompt contents only when the text tower has at least `depth` blocks. The text and visual prompters share one depth, and nothing checks it against the text tower. With fewer blocks each pass records fewer than `depth - 1` contexts. The grid rows then mix prompt ids and the two state passes, as `Pipeline.ShallowTextTowerMixesRows` shows.
- Pipeline.ScaleFromFirstPass requires a text tower of at least `depth` blocks for the same reason. The misaligned grid over a shallower tower is shown only by the concrete case in `Pipeline.ShallowTextTowerMixesRows`.

=== FILE: clustering.dfy ===
/** The abnormality-guided clusterer (MVPCL): the cluster-count schedule, its
    construction-time check, the top-k selection size, and the grouping of the
    selected patch tokens into one prototype per cluster id. */
module Clustering {
  import opened Tokens

  /** Cluster count for a prompt id: `k_clusters - deta_k * prompt_id`. */
  function ClusterCount(kClusters: int, detaK: int, promptId: nat): int {
    kClusters - detaK * promptId
  }

  /** A constructed clusterer: its settings and `n_aggregate_patch_tokens`. */
  datatype Mvpcl = Mvpcl(kClusters: int, detaK: int, promptNum: nat, nAggregate: seq<int>)

  /** `n_aggregate_patch_tokens`: five selected tokens per cluster, for each prompt id. */
  function Schedule(kClusters: int, detaK: int, promptNum: nat): (s: seq<int>)
    ensures |s| == promptNum
    ensures forall p :: 0 <= p < promptNum ==> s[p] == 5 * ClusterCount(kClusters, detaK, p)
  {
    seq(promptNum, p requires 0 <= p < promptNum => (kClusters - detaK * p) * 5)
  }

  /** MVPCL.__init__: fails when the last schedule entry is not positive (and,
      with no prompt ids at all, when there is no last entry to read). */
  function New(kClusters: int, promptNum: nat, detaK: int): (r: Result<Mvpcl>)
    ensures r.Ok? <==> 0 < promptNum && 0 < ClusterCount(kClusters, detaK, promptNum - 1)
    ensures r.Ok? ==> r.value.nAggregate == Schedule(kClusters, detaK, promptNum) && r.value.promptNum == promptNum
    ensures promptNum == 0 ==> r == Err(MissingEntry)
  {
    var s := Schedule(kClusters, detaK, promptNum);
    if promptNum == 0 then Err(MissingEntry)
    else if s[promptNum - 1] <= 0 then Err(BadClusterSchedule)
    else Ok(Mvpcl(kClusters, detaK, promptNum, s))
  }

  /** With a non-negative decay the last entry is the smallest, so a clusterer
      that was constructed has a positive cluster count, and a positive
      selection budget, at every prompt id. */
  lemma ConstructedScheduleIsPositive(kClusters: int, promptNum: nat, detaK: int)
    requires 0 <= detaK && New(kClusters, promptNum, detaK).Ok?
    ensures forall p :: 0 <= p < promptNum ==>
      0 < ClusterCount(kClusters, detaK, p) && 0 < New(kClusters, promptNum, detaK).value.nAggregate[p]
  {
  }

  /** The constructor guard reads only the last entry: with a negative decay an earlier
      prompt id can have no clusters although construction succeeds. */
  lemma NegativeDecayEscapesCheck()
    ensures New(0, 2, -1).Ok? && ClusterCount(0, -1, 0) == 0
  {
  }

  /** Number of patch tokens selected for a prompt id: `min(L, n_aggregate[prompt_id])`. */
  function SelectionSize(m: Mvpcl, patches: nat, promptId: nat): (k: int)
    requires promptId < |m.nAggregate|
    ensures k <= patches && k <= m.nAggregate[promptId]
    ensures k == patches || k == m.nAggregate[promptId]
  {
    if patches < m.nAggregate[promptId] then patches else m.nAggregate[promptId]
  }

  /** One image: its patch tokens and the positions in order of decreasing
      abnormality, as torch.topk ranks the softmaxed abnormal channel. */
  datatype Scored = Scored(patches: seq<Tok>, ranking: seq<nat>)

  /** torch.topk returns in-range positions, one per patch. */
  ghost predicate RankingValid(img: Scored) {
    && |img.ranking| == |img.patches|
    && forall i :: 0 <= i < |img.ranking| ==> img.ranking[i] < |img.patches|
  }

  /** The `k` most abnormal patch tokens, most abnormal first. */
  function Select(img: Scored, k: nat): (r: seq<Tok>)
    requires RankingValid(img) && k <= |img.patches|
    ensures |r| == k
    ensures forall i :: 0 <= i < k ==> r[i] == img.patches[img.ranking[i]]
  {
    seq(k, i requires 0 <= i < k => img.patches[img.ranking[i]])
  }

  /** The selected tokens that the clustering labelled with `cluster`. */
  function Group(selected: seq<Tok>, labels: seq<int>, cluster: int): seq<Tok>
    requires |labels| == |selected|
  {
    if |selected| == 0 then []
    else (if labels[0] == cluster then [selected[0]] else []) + Group(selected[1..], labels[1..], cluster)
  }

  /** A token is in a group exactly when some selected position carrying it has that label. */
  lemma {:induction false} GroupMembers(selected: seq<Tok>, labels: seq<int>, cluster: int, t: Tok)
    requires |labels| == |selected|
    ensures t in Group(selected, labels, cluster) <==>
      exists i :: 0 <= i < |selected| && selected[i] == t && labels[i] == cluster
  {
    if |selected| > 0 {
      GroupMembers(selected[1..], labels[1..], cluster, t);
      if t in Group(selected[1..], labels[1..], cluster) {
        var i :| 0 <= i < |selected[1..]| && selected[1..][i] == t && labels[1..][i] == cluster;
        assert selected[i + 1] == t && labels[i + 1] == cluster;
      }
      if exists i :: 0 <= i < |selected| && selected[i] == t && labels[i] == cluster {
        var i :| 0 <= i < |selected| && selected[i] == t && labels[i] == cluster;
        if i > 0 {
          assert selected[1..][i - 1] == t && labels[1..][i - 1] == cluster;
        }
      }
    }
  }

  /** Total size of the groups of clusters `0 .. n - 1`. */
  function GroupTotal(selected: seq<Tok>, labels: seq<int>, n: nat): nat
    requires |labels| == |selected|
  {
    if n == 0 then 0 else GroupTotal(selected, labels, n - 1) + |Group(selected, labels, n - 1)|
  }

  /** How many labels fall in `0 .. n - 1`. */
  function LabelsBelow(labels: seq<int>, n: nat): nat {
    if |labels| == 0 then 0 else (if 0 <= labels[0] < n then 1 else 0) + LabelsBelow(labels[1..], n)
  }

  lemma {:induction false} GroupTotalCounts(selected: seq<Tok>, labels: seq<int>, n: nat)
    requires |labels| == |selected|
    ensures GroupTotal(selected, labels, n) == LabelsBelow(labels, n)
  {
    if |selected| > 0 {
      GroupTotalCounts(selected[1..], labels[1..], n);
      GroupTotalPeel(selected, labels, n);
    } else if n > 0 {
      GroupTotalCounts(selected, labels, n - 1);
    }
  }

  /** Peeling the first selected token off every group. */
  lemma {:induction false} GroupTotalPeel(selected: seq<Tok>, labels: seq<int>, n: nat)
    requires |labels| == |selected| && 0 < |selected|
    ensures GroupTotal(selected, labels, n)
         == (if 0 <= labels[0] < n then 1 else 0) + GroupTotal(selected[1..], labels[1..], n)
  {
    if n > 0 {
      GroupTotalPeel(selected, labels, n - 1);
    }
  }

  /** When every label names one of the `n` clusters the groups partition the selection. */
  lemma GroupsPartition(selected: seq<Tok>, labels: seq<int>, n: nat)
    requires |labels| == |selected|
    requires forall i :: 0 <= i < |labels| ==> 0 <= labels[i] < n
    ensures GroupTotal(selected, labels, n) == |selected|
  {
    GroupTotalCounts(selected, labels, n);
    AllLabelsBelow(labels, n);
  }

  lemma {:induction false} AllLabelsBelow(labels: seq<int>, n: nat)
    requires forall i :: 0 <= i < |labels| ==> 0 <= labels[i] < n
    ensures LabelsBelow(labels, n) == |labels|
  {
    if |labels| > 0 {
      assert forall i :: 0 <= i < |labels[1..]| ==> labels[1..][i] == labels[i + 1];
      AllLabelsBelow(labels[1..], n);
    }
  }

  /** The members of each cluster of one image; the source then averages and
      normalises each group into a prototype. */
  function Prototypes(selected: seq<Tok>, labels: seq<int>, clusters: nat): (r: seq<seq<Tok>>)
    requires |labels| == |selected|
    ensures |r| == clusters
    ensures forall c :: 0 <= c < clusters ==> r[c] == Group(selected, labels, c)
  {
    seq(clusters, c requires 0 <= c < clusters => Group(selected, labels, c))
  }

  /** The clustering algorithm: labels for the selected tokens. */
  type FitPredict = seq<Tok> -> seq<int>

  /** The clustering of one image for a prompt id whose schedule entry exists.
      Clustering fails on a non-positive cluster count or on fewer selected
      tokens than clusters. */
  function ClusterImage(m: Mvpcl, img: Scored, promptId: nat, fit: FitPredict): Result<seq<seq<Tok>>>
    requires promptId < |m.nAggregate| && RankingValid(img)
  {
    var clusters := ClusterCount(m.kClusters, m.detaK, promptId);
    var k := SelectionSize(m, |img.patches|, promptId);
    if clusters <= 0 then Err(NonPositiveClusters)
    else if k < clusters then Err(TooFewSamples)
    else
      var selected := Select(img, k);
      var labels := fit(selected);
      if |labels| != |selected| then Err(ShapeMismatch)
      else Ok(Prototypes(selected, labels, clusters))
  }

  /** MVPCL.forward for one prompt id over a batch of images; the first failing
      image raises, and stacking an empty batch fails. */
  function Forward(m: Mvpcl, images: seq<Scored>, promptId: nat, fit: FitPredict): (r: Result<seq<seq<seq<Tok>>>>)
    requires forall b :: 0 <= b < |images| ==> RankingValid(images[b])
  {
    if |m.nAggregate| <= promptId then Err(MissingEntry)
    else
      var perImage := seq(|images|, b requires 0 <= b < |images| => ClusterImage(m, images[b], promptId, fit));
      if |images| == 0 then Err(ShapeMismatch)
      else if exists b :: 0 <= b < |images| && perImage[b].Err? then Err(perImage[FirstFailure(perImage)].error)
      else Ok(seq(|images|, b requires 0 <= b < |images| => perImage[b].value))
  }

  /** Position of the first failed entry. */
  function FirstFailure<T>(rs: seq<Result<T>>): (i: nat)
    requires exists b :: 0 <= b < |rs| && rs[b].Err?
    ensures i < |rs| && rs[i].Err?
    ensures forall b :: 0 <= b < i ==> rs[b].Ok?
  {
    if rs[0].Err? then 0
    else
      assert exists b :: 0 <= b < |rs[1..]| && rs[1..][b].Err? by {
        var b :| 0 <= b < |rs| && rs[b].Err?;
        assert rs[1..][b - 1] == rs[b];
      }
      1 + FirstFailure(rs[1..])
  }

  /** A successful clustering gives, for every image in order, one group per
      cluster id `0 .. k_clusters - deta_k * prompt_id - 1`, drawn from that
      image's `min(L, n_aggregate[prompt_id])` most abnormal patches. */
  lemma ForwardShape(m: Mvpcl, images: seq<Scored>, promptId: nat, fit: FitPredict)
    requires forall b :: 0 <= b < |images| ==> RankingValid(images[b])
    requires Forward(m, images, promptId, fit).Ok?
    ensures var out := Forward(m, images, promptId, fit).value;
      && promptId < |m.nAggregate|
      && |out| == |images| && 0 < |images|
      && forall b :: 0 <= b < |images| ==>
           && |out[b]| == ClusterCount(m.kClusters, m.detaK, promptId)
           && var k := SelectionSize(m, |images[b].patches|, promptId);
              && 0 <= k
              && forall c, t :: 0 <= c < |out[b]| && t in out[b][c] ==>
                   exists i :: 0 <= i < k && t == images[b].patches[images[b].ranking[i]]
  {
    var out := Forward(m, images, promptId, fit).value;
    var perImage := seq(|images|, b requires 0 <= b < |images| => ClusterImage(m, images[b], promptId, fit));
    assert forall b :: 0 <= b < |images| ==> perImage[b].Ok? && out[b] == perImage[b].value;
    forall b, c, t | 0 <= b < |images| && 0 <= c < |out[b]| && t in out[b][c]
      ensures exists i :: 0 <= i < SelectionSize(m, |images[b].patches|, promptId) &&
                t == images[b].patches[images[b].ranking[i]]
    {
      var k := SelectionSize(m, |images[b].patches|, promptId);
      var selected := Select(images[b], k);
      var labels := fit(selected);
      GroupMembers(selected, labels, c, t);
      var i :| 0 <= i < |selected| && selected[i] == t && labels[i] == c;
    }
  }
}

=== FILE: fusion.dfy ===
/** The discrete control of the hierarchical prompt transfer (HMPT.forward):
    which class token seeds the dynamic prompts of a scale. */
module Fusion {
  import opened Tokens

  /** The learned parts of HMPT, opaque here: the scale adapter and the
      cross-attention block (query, keys/values) -> fused token. */
  datatype Hmpt = Hmpt(adapter: Tok -> Tok, attend: (Tok, seq<Tok>) -> Tok)

  /** HMPT.forward for scale `scale` of the per-scale patch-token sequences
      (class token first). Returns the fused token twice, one per state. */
  function Forward(h: Hmpt, patchTokens: seq<seq<Tok>>, scale: nat): Result<(Tok, Tok)> {
    if |patchTokens| == 0 || |patchTokens[|patchTokens| - 1]| == 0 then Err(MissingEntry)
    else
      var global := patchTokens[|patchTokens| - 1][0];
      if scale == |patchTokens| - 1 then Ok((global, global))
      else if |patchTokens| <= scale then Err(MissingEntry)
      else
        var q := h.adapter(global);
        var scalePatches := Slice(patchTokens[scale], 1, |patchTokens[scale]|);
        var fused := h.attend(q, [q] + scalePatches);
        Ok((fused, fused))
  }

  /** Both returned tokens are the same; the last scale short-circuits to the
      plain class token of the last scale, and any earlier scale attends the
      adapted class token against itself and that scale's patch tokens without
      their class token. This covers the control flow only: the adapter and
      the attention are opaque, so there is no numeric property to relate. */
  lemma ForwardCases(h: Hmpt, patchTokens: seq<seq<Tok>>, scale: nat)
    ensures var r := Forward(h, patchTokens, scale);
      && (r.Ok? <==> 0 < |patchTokens| && 0 < |patchTokens[|patchTokens| - 1]| && scale < |patchTokens|)
      && (r.Ok? ==> r.value.0 == r.value.1)
      && (r.Ok? && scale == |patchTokens| - 1 ==> r.value.0 == patchTokens[scale][0])
      && (r.Ok? && scale < |patchTokens| - 1 ==>
            var q := h.adapter(patchTokens[|patchTokens| - 1][0]);
            var ps := patchTokens[scale];
            r.value.0 == h.attend(q, [q] + (if |ps| == 0 then [] else ps[1..])))
  {
    if 0 < |patchTokens| && scale < |patchTokens| - 1 {
      var ps := patchTokens[scale];
      if |ps| > 0 {
        SliceInRange(ps, 1, |ps|);
      }
      assert Slice(ps, 1, |ps|) == (if |ps| == 0 then [] else ps[1..]);
    }
  }
}

=== FILE: pipeline.dfy ===
/** The orchestrator's bookkeeping (MVPS): the layer loop of encode_image with
    its prompt-id counter, the slicing of the text replay buffer into visual
    scale prompts in extract_feat, and the hard-wired clusterer settings. */
module Pipeline {
  import opened Tokens
  import VisualPrompt
  import TextPrompt
  import Clustering

  /** MVPS builds its clusterer with ten clusters and no decay. */
  const KClusters: int := 10
  const DetaK: int := 0

  /** The clusterer MVPS constructs for its output layers. */
  function NewClusterer(outputLayers: seq<int>): Result<Clustering.Mvpcl> {
    Clustering.New(KClusters, |outputLayers|, DetaK)
  }

  /** MVPS's clusterer is built exactly when there is at least one output layer;
      then every prompt id clusters into ten prototypes from the
      `min(L, 50)` most abnormal patches. */
  lemma ClustererSettings(outputLayers: seq<int>, patches: nat)
    ensures NewClusterer(outputLayers).Ok? <==> 0 < |outputLayers|
    ensures NewClusterer(outputLayers).Ok? ==>
      var m := NewClusterer(outputLayers).value;
      forall p :: 0 <= p < |outputLayers| ==>
        && Clustering.ClusterCount(m.kClusters, m.detaK, p) == 10
        && Clustering.SelectionSize(m, patches, p) == (if patches < 50 then patches else 50)
  {
  }

  /** The prompt id encode_image passes at layer `indx`: how many (1-based)
      output layer numbers lie in `1 .. indx`, i.e. how many output layers
      have already run. */
  function PromptIdAt(outputLayers: seq<int>, indx: nat): nat {
    |set v | v in outputLayers && 1 <= v <= indx|
  }

  /** Moving past layer `indx` raises the prompt id by one exactly when that
      layer is an output layer. */
  lemma PromptIdStep(outputLayers: seq<int>, indx: nat)
    ensures PromptIdAt(outputLayers, indx + 1)
         == PromptIdAt(outputLayers, indx) + (if indx + 1 in outputLayers then 1 else 0)
  {
    var a := set v | v in outputLayers && 1 <= v <= indx;
    var b := set v | v in outputLayers && 1 <= v <= indx + 1;
    if indx + 1 in outputLayers {
      assert b == a + {indx + 1};
    } else {
      assert b == a;
    }
  }

  /** With distinct output layers that all exist, the last prompt id equals the
      number of output layers. */
  lemma {:induction false} PromptIdCountsOutputs(outputLayers: seq<int>, layers: nat)
    requires forall i :: 0 <= i < |outputLayers| ==> 1 <= outputLayers[i] <= layers
    requires forall i, k :: 0 <= i < k < |outputLayers| ==> outputLayers[i] != outputLayers[k]
    ensures PromptIdAt(outputLayers, layers) == |outputLayers|
  {
    var s := set v | v in outputLayers && 1 <= v <= layers;
    assert s == set v | v in outputLayers;
    DistinctCard(outputLayers);
  }

  lemma {:induction false} DistinctCard(s: seq<int>)
    requires forall i, k :: 0 <= i < k < |s| ==> s[i] != s[k]
    ensures |set v | v in s| == |s|
  {
    if |s| > 0 {
      var t := s[..|s| - 1];
      DistinctCard(t);
      assert (set v | v in s) == (set v | v in t) + {s[|s| - 1]};
      assert s[|s| - 1] !in t;
    }
  }

  /** Where the layer loop of encode_image stands: still running, with the
      prompter state, the sequence and the patch tokens gathered so far, or
      stopped by an error. */
  datatype ImageRun =
    | Running(state: VisualPrompt.State, x: seq<Tok>, patches: seq<seq<Tok>>)
    | Failed(state: VisualPrompt.State, error: Error)

  /** One layer of encode_image: the clean tokens of an output layer are kept. */
  function ImageStep(c: VisualPrompt.Config, run: ImageRun, block: Block, indx: nat, promptId: nat, isOutput: bool): (r: ImageRun)
    ensures run.Failed? ==> r == run
    ensures r.Running? ==> run.Running? && |r.patches| == |run.patches| + (if isOutput then 1 else 0)
  {
    match run
    case Failed(_, _) => run
    case Running(st, x, patches) =>
      var r := VisualPrompt.Forward(c, st, block, indx, promptId, x);
      match r.out
      case Err(e) => Failed(r.state, e)
      case Ok(l) => Running(r.state, l.raw, if isOutput then patches + [l.clean] else patches)
  }

  /** Reference run of the first `n` layers, where layer `indx` receives
      the prompt id `PromptIdAt(outputLayers, indx)`. */
  function RunImage(c: VisualPrompt.Config, st: VisualPrompt.State, x: seq<Tok>, blocks: seq<Block>, outputLayers: seq<int>, n: nat): ImageRun
    requires n <= |blocks|
  {
    if n == 0 then Running(st, x, [])
    else ImageStep(c, RunImage(c, st, x, blocks, outputLayers, n - 1), blocks[n - 1], n - 1,
                   PromptIdAt(outputLayers, n - 1), n in outputLayers)
  }

  lemma {:induction false} FailureIsFinal(c: VisualPrompt.Config, st: VisualPrompt.State, x: seq<Tok>, blocks: seq<Block>, outputLayers: seq<int>, n: nat, m: nat)
    requires n <= m <= |blocks| && RunImage(c, st, x, blocks, outputLayers, n).Failed?
    ensures RunImage(c, st, x, blocks, outputLayers, m) == RunImage(c, st, x, blocks, outputLayers, n)
    decreases m - n
  {
    if n < m {
      FailureIsFinal(c, st, x, blocks, outputLayers, n, m - 1);
    }
  }

  /** encode_image's layer loop, with the running prompt-id counter the source
      keeps. It agrees with the reference run, so the prompt id at layer `indx`
      is the number of output layers up to `indx`, and a successful run holds
      one patch-token entry per output layer. */
  method EncodeImage(c: VisualPrompt.Config, st: VisualPrompt.State, blocks: seq<Block>, outputLayers: seq<int>, x: seq<Tok>)
    returns (run: ImageRun)
    ensures run == RunImage(c, st, x, blocks, outputLayers, |blocks|)
    ensures run.Running? ==> |run.patches| == PromptIdAt(outputLayers, |blocks|)
  {
    var promptId: nat := 0;
    var indx := 0;
    run := Running(st, x, []);
    while indx < |blocks| && run.Running?
      invariant 0 <= indx <= |blocks|
      invariant promptId == PromptIdAt(outputLayers, indx)
      invariant run == RunImage(c, st, x, blocks, outputLayers, indx)
      invariant run.Running? ==> |run.patches| == promptId
    {
      var isOutput := indx + 1 in outputLayers;
      run := ImageStep(c, run, blocks[indx], indx, promptId, isOutput);
      if isOutput {
        promptId := promptId + 1;
      }
      PromptIdStep(outputLayers, indx);
      indx := indx + 1;
    }
    if indx < |blocks| {
      FailureIsFinal(c, st, x, blocks, outputLayers, indx, |blocks|);
    }
  }

  /** The layers never change the installed scale prompts. */
  lemma {:induction false} RunKeepsScale(c: VisualPrompt.Config, st: VisualPrompt.State, x: seq<Tok>, blocks: seq<Block>, outputLayers: seq<int>, n: nat)
    requires n <= |blocks|
    ensures RunImage(c, st, x, blocks, outputLayers, n).state.scale == st.scale
  {
    if n > 0 {
      RunKeepsScale(c, st, x, blocks, outputLayers, n - 1);
      var prev := RunImage(c, st, x, blocks, outputLayers, n - 1);
      if prev.Running? {
        VisualPrompt.ForwardKeepsScale(c, prev.state, blocks[n - 1], n - 1, PromptIdAt(outputLayers, n - 1), prev.x);
      }
    }
  }

  /** After a successful enabled run the prompter stores the prompt id its last
      layer received, the number of output layers before that layer; the next
      call resets the counter at layer 0 exactly when this id differs from 0. */
  lemma RunStoresPromptId(c: VisualPrompt.Config, st: VisualPrompt.State, x: seq<Tok>, blocks: seq<Block>, outputLayers: seq<int>, n: nat)
    requires c.enabled && 1 <= n <= |blocks|
    requires RunImage(c, st, x, blocks, outputLayers, n).Running?
    ensures RunImage(c, st, x, blocks, outputLayers, n).state.promptId == PromptIdAt(outputLayers, n - 1)
  {
  }

  /** Sequence lengths along a successful run over length-preserving blocks:
      with the prompter enabled the carried sequence is 2L longer than the
      input from layer 0 on, while every returned patch-token entry has the
      input's length; disabled, nothing is ever added. */
  lemma {:induction false} RunLengths(c: VisualPrompt.Config, st: VisualPrompt.State, x: seq<Tok>, blocks: seq<Block>, outputLayers: seq<int>, n: nat)
    requires n <= |blocks| && VisualPrompt.Valid(c) && VisualPrompt.ScaleValid(c, st)
    requires forall i :: 0 <= i < |blocks| ==> LengthPreserving(blocks[i])
    requires RunImage(c, st, x, blocks, outputLayers, n).Running?
    ensures var run := RunImage(c, st, x, blocks, outputLayers, n);
      && |run.x| == |x| + (if c.enabled && 0 < n then 2 * c.length else 0)
      && forall k :: 0 <= k < |run.patches| ==> |run.patches[k]| == |x|
  {
    if n > 0 {
      var prev := RunImage(c, st, x, blocks, outputLayers, n - 1);
      assert prev.Running?;
      RunLengths(c, st, x, blocks, outputLayers, n - 1);
      RunKeepsScale(c, st, x, blocks, outputLayers, n - 1);
      assert VisualPrompt.ScaleValid(c, prev.state);
      var pid := PromptIdAt(outputLayers, n - 1);
      var b := blocks[n - 1];
      assert LengthPreserving(b);
      if !c.enabled {
        VisualPrompt.DisabledPassThrough(c, prev.state, b, n - 1, pid, prev.x);
      } else if n - 1 == 0 {
        VisualPrompt.FirstLayerLength(c, prev.state, b, pid, prev.x);
      } else {
        VisualPrompt.LaterLayerLength(c, prev.state, b, n - 1, pid, prev.x);
      }
    }
  }

  /** extract_feat's reading of the replay buffer: the first
      `promptNum * (depth - 1)` entries, stacked and reshaped into a
      `[promptNum][depth - 1]` grid, each block mapped token-wise by the
      cross-modal map of its prompt id. Reading an empty window, stacking
      blocks of different lengths or reshaping a window of the wrong size
      fails; a depth of 0 is reported as a shape error. */
  function ScalePrompts(memory: seq<seq<Tok>>, promptNum: nat, depth: nat, dpto: (nat, Tok) -> Tok): Result<seq<seq<seq<Tok>>>> {
    var window := Slice(memory, 0, promptNum * (depth - 1));
    if |window| == 0 then Err(MissingEntry)
    else if depth == 0 || |window| != promptNum * (depth - 1) then Err(ShapeMismatch)
    else if exists i :: 0 <= i < |window| && |window[i]| != |window[0]| then Err(ShapeMismatch)
    else
      TextPrompt.RowStartProduct(promptNum, depth - 1);
      Ok(seq(promptNum, p requires 0 <= p < promptNum =>
              seq(depth - 1, j requires 0 <= j < depth - 1 =>
                MapToks(t => dpto(p, t), window[TextPrompt.Slot(p, j + 1, promptNum, depth - 1)]))))
  }

  /** Over a buffer holding at least `promptNum * (depth - 1)` equally long
      blocks, grid cell `[p][j]` is the mapped entry `p * (depth - 1) + j`;
      entries past the window are never read, so a buffer left uncleared by an
      earlier pass decides the scale prompts whatever a later pass appends. */
  lemma ScalePromptsGrid(memory: seq<seq<Tok>>, extra: seq<seq<Tok>>, promptNum: nat, depth: nat, dpto: (nat, Tok) -> Tok)
    requires 1 <= promptNum && 2 <= depth && TextPrompt.RowStart(promptNum, depth - 1) <= |memory|
    requires forall i :: 0 <= i < TextPrompt.RowStart(promptNum, depth - 1) ==> |memory[i]| == |memory[0]|
    ensures ScalePrompts(memory + extra, promptNum, depth, dpto) == ScalePrompts(memory, promptNum, depth, dpto)
    ensures var r := ScalePrompts(memory, promptNum, depth, dpto);
      && r.Ok?
      && |r.value| == promptNum
      && (forall p :: 0 <= p < promptNum ==> |r.value[p]| == depth - 1)
      && forall p, j :: 0 <= p < promptNum && 0 <= j < depth - 1 ==>
           r.value[p][j] == MapToks(t => dpto(p, t), memory[TextPrompt.Slot(p, j + 1, promptNum, depth - 1)])
  {
    var n := promptNum * (depth - 1);
    TextPrompt.RowStartProduct(promptNum, depth - 1);
    SliceInRange(memory, 0, n);
    SliceInRange(memory + extra, 0, n);
    assert (memory + extra)[..n] == memory[..n];
  }

  /** Scale prompts come out only of a buffer holding a full window of equally
      long blocks, with at least one prompt id and one injected layer
      (ScalePromptsGrid gives the converse). */
  lemma ScalePromptsNeeds(memory: seq<seq<Tok>>, promptNum: nat, depth: nat, dpto: (nat, Tok) -> Tok)
    requires ScalePrompts(memory, promptNum, depth, dpto).Ok?
    ensures 1 <= promptNum && 2 <= depth && promptNum * (depth - 1) <= |memory|
    ensures forall i :: 0 <= i < promptNum * (depth - 1) ==> |memory[i]| == |memory[0]|
  {
    var n := promptNum * (depth - 1);
    assert 1 <= promptNum && 2 <= depth;
    assert n <= |memory|;
    SliceInRange(memory, 0, n);
  }

  /** The orchestrator's construction-time settings: the text and visual
      prompters and the monitored output layers. */
  datatype Mvps = Mvps(text: TextPrompt.Config, visual: VisualPrompt.Config, outputLayers: seq<int>)

  /** As the constructor wires them: one prompt id per output layer, one
      prompt depth and one prompt length for both branches. */
  ghost predicate Consistent(m: Mvps) {
    && m.text.promptNum == |m.outputLayers|
    && m.text.depth == m.visual.depth
    && m.text.length == m.visual.length
  }

  /** Text features per state (one sequence per prompt id) and the patch tokens
      of the prompted image pass. */
  datatype Features = Features(normal: seq<seq<Tok>>, abnormal: seq<seq<Tok>>, patches: seq<seq<Tok>>)

  /** extract_feat after the dynamic prompts are set: encode the normal and then
      the abnormal texts, turn the buffer into visual scale prompts, run the
      prompted image pass, and clear the buffer. A failure leaves the buffer
      as it was at that point. */
  method ExtractFeat(m: Mvps, tst: TextPrompt.State, vst: VisualPrompt.State,
                     textBlocks: seq<Block>, visualBlocks: seq<Block>,
                     xNormal: seq<Tok>, xAbnormal: seq<Tok>, image: seq<Tok>, dpto: (nat, Tok) -> Tok)
    returns (tst': TextPrompt.State, vst': VisualPrompt.State, res: Result<Features>)
    requires Consistent(m)
    ensures !m.text.enabled ==> res.Err?
    ensures res.Ok? ==> |tst'.memory| == 0 && tst'.dynamic == tst.dynamic
    ensures res.Ok? ==>
      && |res.value.normal| == |m.outputLayers| && |res.value.abnormal| == |m.outputLayers|
      && |res.value.patches| == PromptIdAt(m.outputLayers, |visualBlocks|)
    ensures res.Ok? && |tst.memory| == 0 && 1 <= m.text.depth <= |textBlocks| ==>
      && 2 <= m.text.depth && 1 <= m.text.promptNum
      && |vst'.scale| == m.text.promptNum
      && forall p, j :: 0 <= p < m.text.promptNum && 1 <= j < m.text.depth ==>
           && |vst'.scale[p]| == m.text.depth - 1
           && TextPrompt.Context(m.text, tst, j, p).Ok?
           && vst'.scale[p][j - 1] == MapToks(t => dpto(p, t), TextPrompt.Context(m.text, tst, j, p).value)
  {
    var normal := TextPrompt.RunPrompts(m.text, tst, textBlocks, 0, xNormal, 0);
    if normal.out.Err? {
      return normal.state, vst, Err(normal.out.error);
    }
    var abnormal := TextPrompt.RunPrompts(m.text, normal.state, textBlocks, 0, xAbnormal, 1);
    if abnormal.out.Err? {
      return abnormal.state, vst, Err(abnormal.out.error);
    }
    if !m.text.enabled {
      return abnormal.state, vst, Err(MissingEntry);
    }
    var scale := ScalePrompts(abnormal.state.memory, m.text.promptNum, m.text.depth, dpto);
    if scale.Err? {
      return abnormal.state, vst, Err(scale.error);
    }
    var run := EncodeImage(m.visual, vst.(scale := scale.value), visualBlocks, m.outputLayers, image);
    if run.Failed? {
      return abnormal.state, run.state, Err(run.error);
    }
    RunKeepsScale(m.visual, vst.(scale := scale.value), image, visualBlocks, m.outputLayers, |visualBlocks|);
    tst' := TextPrompt.ResetMemory(abnormal.state);
    vst' := run.state;
    res := Ok(Features(normal.out.value, abnormal.out.value, run.patches));
    if |tst.memory| == 0 && 1 <= m.text.depth <= |textBlocks| {
      ScaleFromFirstPass(m, tst, textBlocks, xNormal, xAbnormal, dpto);
    }
  }

  /** The scale prompts extract_feat derives from an empty buffer come from the
      normal-state pass: cell `[p][j - 1]` is the mapped text context of layer
      `j` for prompt id `p`. */
  lemma ScaleFromFirstPass(m: Mvps, tst: TextPrompt.State, textBlocks: seq<Block>,
                           xNormal: seq<Tok>, xAbnormal: seq<Tok>, dpto: (nat, Tok) -> Tok)
    requires m.text.enabled && |tst.memory| == 0 && 1 <= m.text.depth <= |textBlocks|
    requires TextPrompt.RunPrompts(m.text, tst, textBlocks, 0, xNormal, 0).out.Ok?
    requires
      var normal := TextPrompt.RunPrompts(m.text, tst, textBlocks, 0, xNormal, 0);
      var abnormal := TextPrompt.RunPrompts(m.text, normal.state, textBlocks, 0, xAbnormal, 1);
      abnormal.out.Ok? &&
      ScalePrompts(abnormal.state.memory, m.text.promptNum, m.text.depth, dpto).Ok?
    ensures 2 <= m.text.depth && 1 <= m.text.promptNum
    ensures
      var normal := TextPrompt.RunPrompts(m.text, tst, textBlocks, 0, xNormal, 0);
      var abnormal := TextPrompt.RunPrompts(m.text, normal.state, textBlocks, 0, xAbnormal, 1);
      var s := ScalePrompts(abnormal.state.memory, m.text.promptNum, m.text.depth, dpto).value;
      && |s| == m.text.promptNum
      && forall p, j :: 0 <= p < m.text.promptNum && 1 <= j < m.text.depth ==>
           && |s[p]| == m.text.depth - 1
           && TextPrompt.Context(m.text, tst, j, p).Ok?
           && s[p][j - 1] == MapToks(t => dpto(p, t), TextPrompt.Context(m.text, tst, j, p).value)
  {
    var c := m.text;
    var normal := TextPrompt.RunPrompts(c, tst, textBlocks, 0, xNormal, 0);
    var abnormal := TextPrompt.RunPrompts(c, normal.state, textBlocks, 0, xAbnormal, 1);
    TextPrompt.EncodeTextBuffer(c, tst, textBlocks, xNormal, 0);
    TextPrompt.EncodeTextBuffer(c, normal.state, textBlocks, xAbnormal, 1);
    GridOfContexts(c, tst, normal.state.memory, abnormal.state.memory, dpto);
  }

  /** The grid cells read from a buffer whose window is one pass's contexts. */
  lemma GridOfContexts(c: TextPrompt.Config, st: TextPrompt.State, first: seq<seq<Tok>>, all: seq<seq<Tok>>, dpto: (nat, Tok) -> Tok)
    requires 1 <= c.depth
    requires |first| == TextPrompt.RowStart(c.promptNum, c.depth - 1) <= |all| && all[..|first|] == first
    requires forall p, j :: 0 <= p < c.promptNum && 1 <= j < c.depth ==>
      && TextPrompt.Context(c, st, j, p).Ok?
      && first[0 + TextPrompt.Slot(p, j, c.promptNum, c.depth - 1)] == TextPrompt.Context(c, st, j, p).value
    requires ScalePrompts(all, c.promptNum, c.depth, dpto).Ok?
    ensures 2 <= c.depth && 1 <= c.promptNum
    ensures var s := ScalePrompts(all, c.promptNum, c.depth, dpto).value;
      && |s| == c.promptNum
      && forall p, j :: 0 <= p < c.promptNum && 1 <= j < c.depth ==>
           && |s[p]| == c.depth - 1
           && TextPrompt.Context(c, st, j, p).Ok?
           && s[p][j - 1] == MapToks(t => dpto(p, t), TextPrompt.Context(c, st, j, p).value)
  {
    var n := |first|;
    TextPrompt.RowStartProduct(c.promptNum, c.depth - 1);
    ScalePromptsNeeds(all, c.promptNum, c.depth, dpto);
    var extra := all[n..];
    assert all == first + extra;
    ScalePromptsGrid(first, extra, c.promptNum, c.depth, dpto);
    var s := ScalePrompts(all, c.promptNum, c.depth, dpto).value;
    forall p, j | 0 <= p < c.promptNum && 1 <= j < c.depth
      ensures s[p][j - 1] == MapToks(t => dpto(p, t), TextPrompt.Context(c, st, j, p).value)
    {
      assert TextPrompt.Slot(p, (j - 1) + 1, c.promptNum, c.depth - 1) == TextPrompt.Slot(p, j, c.promptNum, c.depth - 1);
    }
  }

  /** With a prompt depth above the text tower's block count each pass records
      fewer than `depth - 1` contexts, so the window of `promptNum * (depth - 1)`
      entries runs into the next prompt id's entries. Two prompt ids, depth 3
      and two text blocks: cell `[0][1]` holds prompt 1's layer-1 context, not
      prompt 0's layer-2 context. */
  lemma ShallowTextTowerMixesRows(dpto: (nat, Tok) -> Tok)
    ensures
      var c := TextPrompt.Config(true, 1, 3, 2, TextPrompt.StaticOnly,
                                 [[[Emb(5)], [Emb(5)]], [[Emb(5)], [Emb(5)]]],
                                 [[[Emb(1)], [Emb(2)]], [[Emb(3)], [Emb(4)]]]);
      var st := TextPrompt.State([], [[[Emb(6)], [Emb(6)]], [[Emb(6)], [Emb(6)]]], []);
      var blocks: seq<Block> := [y => y, y => y];
      var normal := TextPrompt.RunPrompts(c, st, blocks, 0, [Emb(0), Emb(0)], 0);
      var abnormal := TextPrompt.RunPrompts(c, normal.state, blocks, 0, [Emb(0), Emb(0)], 1);
      var s := ScalePrompts(abnormal.state.memory, c.promptNum, c.depth, dpto);
      && abnormal.out.Ok? && s.Ok?
      && TextPrompt.Context(c, st, 2, 0) == Ok([Emb(2)])
      && s.value[0][1] == [dpto(0, Emb(3))]
  {
  }
}

=== FILE: projection.dfy ===
/** The per-replica projector (ProjectLayer): replica `i` of the input goes
    through linear head `i`. */
module Projection {
  import opened Tokens

  /** A token batch as the projector sees it: rank 3 (a sequence of positions,
      class token first) or rank 2 (one pooled token). */
  datatype Batch = Positions(toks: seq<Tok>) | Pooled(tok: Tok)

  /** Settings: number of replicas (heads), stacking of the outputs, and
      whether the input is a list of batches (array mode) or one batch whose
      sequence axis holds the replicas. */
  datatype Layer = Layer(numReplicas: nat, stack: bool, isArray: bool)

  /** Head `i` applied to one token. */
  type Heads = (nat, Tok) -> Tok

  /** The outputs: a list, or stacked along a new replica axis. */
  datatype Projected = Listed(items: seq<Batch>) | Stacked(items: seq<Batch>)

  /** The shape of one output as torch.stack compares it: a sequence of some
      length, or a single token. */
  datatype Shape = Seq(length: nat) | Single

  function ShapeOf(b: Batch): Shape {
    match b
    case Positions(ts) => Seq(|ts|)
    case Pooled(_) => Single
  }

  /** All items have the shape of the first. */
  predicate SameShapes(items: seq<Batch>) {
    forall i :: 0 <= i < |items| ==> ShapeOf(items[i]) == ShapeOf(items[0])
  }

  /** The outputs as returned: the list itself, or stacked along a new axis,
      which needs at least one item and all items of one shape. */
  function Wrap(l: Layer, items: seq<Batch>): (r: Result<Projected>)
    ensures r.Ok? <==> !l.stack || (0 < |items| && SameShapes(items))
    ensures r.Err? ==> r.error == ShapeMismatch
    ensures r.Ok? ==> r.value.items == items && (r.value.Stacked? <==> l.stack)
  {
    if !l.stack then Ok(Listed(items))
    else if |items| == 0 || exists i :: 0 <= i < |items| && ShapeOf(items[i]) != ShapeOf(items[0]) then Err(ShapeMismatch)
    else Ok(Stacked(items))
  }

  /** The shape head `i` produces from an array-mode input: a rank-3 batch
      without its class token, or one token. */
  function ProjectedShape(b: Batch): Shape {
    match b
    case Positions(ts) => Seq(if |ts| == 0 then 0 else |ts| - 1)
    case Pooled(_) => Single
  }

  /** Array mode, one replica: a rank-3 batch loses position 0 (the class token)
      before the head is applied to every remaining position. */
  function ProjectOne(head: Heads, i: nat, b: Batch): Batch {
    match b
    case Positions(ts) => Positions(MapToks(t => head(i, t), Slice(ts, 1, |ts|)))
    case Pooled(t) => Pooled(head(i, t))
  }

  /** At least one replica, and every projected output shaped like the first. */
  predicate ProjectedAlike(n: nat, tokens: seq<Batch>)
    requires n <= |tokens|
  {
    0 < n && forall i :: 0 <= i < n ==> ProjectedShape(tokens[i]) == ProjectedShape(tokens[0])
  }

  /** forward in array mode: the list must hold a batch for every replica. */
  function ForwardArray(l: Layer, head: Heads, tokens: seq<Batch>): Result<Projected>
    requires l.isArray
  {
    if |tokens| < l.numReplicas then Err(MissingEntry)
    else Wrap(l, seq(l.numReplicas, i requires 0 <= i < l.numReplicas => ProjectOne(head, i, tokens[i])))
  }

  /** forward outside array mode: a rank-3 batch holds replica `i` at sequence
      position `i`; a rank-2 batch is fed whole to every head. */
  function ForwardSingle(l: Layer, head: Heads, tokens: Batch): Result<Projected>
    requires !l.isArray
  {
    match tokens
    case Positions(ts) =>
      if |ts| < l.numReplicas then Err(MissingEntry)
      else Wrap(l, seq(l.numReplicas, i requires 0 <= i < l.numReplicas => Pooled(head(i, ts[i]))))
    case Pooled(t) => Wrap(l, seq(l.numReplicas, i requires 0 <= i < l.numReplicas => Pooled(head(i, t))))
  }

  /** Array mode succeeds exactly when there is a batch per replica and, when
      stacking, at least one replica and projected outputs of one shape; it
      then returns one output per replica: a rank-3 input loses its class
      token and every other position goes through head `i`; a rank-2 input
      goes through head `i` whole. */
  lemma ArrayShape(l: Layer, head: Heads, tokens: seq<Batch>)
    requires l.isArray
    ensures ForwardArray(l, head, tokens).Ok? <==>
      && l.numReplicas <= |tokens|
      && (l.stack ==> ProjectedAlike(l.numReplicas, tokens))
    ensures ForwardArray(l, head, tokens).Ok? ==>
      var out := ForwardArray(l, head, tokens).value.items;
      && |out| == l.numReplicas
      && (forall i :: 0 <= i < l.numReplicas && tokens[i].Pooled? ==> out[i] == Pooled(head(i, tokens[i].tok)))
      && forall i :: 0 <= i < l.numReplicas && tokens[i].Positions? ==>
           && out[i].Positions?
           && |out[i].toks| == (if |tokens[i].toks| == 0 then 0 else |tokens[i].toks| - 1)
           && forall k :: 0 <= k < |out[i].toks| ==> out[i].toks[k] == head(i, tokens[i].toks[k + 1])
  {
    if l.numReplicas <= |tokens| {
      var items := seq(l.numReplicas, i requires 0 <= i < l.numReplicas => ProjectOne(head, i, tokens[i]));
      forall i | 0 <= i < l.numReplicas
        ensures ShapeOf(items[i]) == ProjectedShape(tokens[i])
      {
        var b := tokens[i];
        if b.Positions? && |b.toks| > 0 {
          SliceInRange(b.toks, 1, |b.toks|);
        }
      }
    }
    if ForwardArray(l, head, tokens).Ok? {
      var out := ForwardArray(l, head, tokens).value.items;
      forall i | 0 <= i < l.numReplicas && tokens[i].Positions?
        ensures |out[i].toks| == (if |tokens[i].toks| == 0 then 0 else |tokens[i].toks| - 1)
        ensures forall k :: 0 <= k < |out[i].toks| ==> out[i].toks[k] == head(i, tokens[i].toks[k + 1])
      {
        var ts := tokens[i].toks;
        if |ts| > 0 {
          SliceInRange(ts, 1, |ts|);
        }
      }
    }
  }

  /** Outside array mode there is one pooled output per replica; the outputs
      always share a shape, so stacking fails only on zero replicas. */
  lemma SingleShape(l: Layer, head: Heads, tokens: Batch)
    requires !l.isArray
    ensures ForwardSingle(l, head, tokens).Ok? <==>
      (tokens.Positions? ==> l.numReplicas <= |tokens.toks|) && (l.stack ==> 0 < l.numReplicas)
    ensures ForwardSingle(l, head, tokens).Ok? ==>
      var out := ForwardSingle(l, head, tokens).value.items;
      && |out| == l.numReplicas
      && forall i :: 0 <= i < l.numReplicas ==>
           out[i] == Pooled(head(i, if tokens.Positions? then tokens.toks[i] else tokens.tok))
  {
  }

  /** Stacking changes only how the outputs are packaged, and fails exactly
      when the listed outputs are empty or of different shapes. */
  lemma StackOnlyPackages(l: Layer, head: Heads, tokens: seq<Batch>)
    requires l.isArray
    ensures var a := ForwardArray(l.(stack := true), head, tokens);
      var b := ForwardArray(l.(stack := false), head, tokens);
      && (a.Ok? <==> b.Ok? && 0 < |b.value.items| && SameShapes(b.value.items))
      && (a.Ok? ==> a.value.items == b.value.items && a.value.Stacked? && b.value.Listed?)
  {
  }

  /** Stacking zero replicas, or rank-3 outputs of different lengths, fails. */
  lemma StackRejects(head: Heads, a: Tok, b: Tok, c: Tok)
    ensures ForwardArray(Layer(0, true, true), head, []) == Err(ShapeMismatch)
    ensures ForwardArray(Layer(2, true, true), head, [Positions([a, b]), Positions([a, b, c])]) == Err(ShapeMismatch)
  {
    var ts := [Positions([a, b]), Positions([a, b, c])];
    ArrayShape(Layer(2, true, true), head, ts);
    assert ProjectedShape(ts[1]) != ProjectedShape(ts[0]);
  }
}

=== FILE: text_embedding.dfy ===
/** The text embedding composer's discrete part
    (MutilPrompt_TextEmbebddingLayer): the placeholder string, the normal and
    abnormal sentences, and tokenisation padded or truncated to the context
    length. */
module TextEmbedding {
  import opened Tokens

  /** The BPE tokenizer: an opaque encoder and the start/end marker ids. */
  datatype Tokenizer = Tokenizer(encode: string -> seq<int>, sot: int, eot: int)

  /** Context length used when the sentences are tokenised. */
  const ContextLength: nat := 77

  /** `" ".join(["X"] * length)`. */
  function Placeholder(length: nat): string {
    if length == 0 then "" else if length == 1 then "X" else Placeholder(length - 1) + " X"
  }

  /** The placeholder is `length` copies of "X" separated by single spaces. */
  lemma {:induction false} PlaceholderShape(length: nat)
    ensures length == 0 ==> Placeholder(length) == ""
    ensures 0 < length ==> |Placeholder(length)| == 2 * length - 1
    ensures forall i :: 0 <= i < |Placeholder(length)| ==>
      Placeholder(length)[i] == (if i % 2 == 0 then 'X' else ' ')
  {
    if 1 < length {
      PlaceholderShape(length - 1);
      var p := Placeholder(length - 1);
      assert Placeholder(length) == p + [' ', 'X'];
    }
  }

  /** The string every row encodes in placeholder mode. */
  function PromptText(length: nat): string {
    Placeholder(length) + " " + "object"
  }

  /** The token list of one input before fitting: start marker, encoding, end marker. */
  function Wrapped(tk: Tokenizer, length: nat, text: string, placeholder: bool): seq<int> {
    [tk.sot] + tk.encode(if placeholder then PromptText(length) else text) + [tk.eot]
  }

  function Zeros(n: nat): (z: seq<int>)
    ensures |z| == n && forall i :: 0 <= i < n ==> z[i] == 0
  {
    seq(n, i => 0)
  }

  /** Fits one token list into a row of the result tensor. Truncation keeps the
      first `contextLength` tokens and overwrites the last with the end marker;
      at context length 0 that write has no element to hit and fails. */
  function Fit(tokens: seq<int>, text: string, contextLength: nat, truncate: bool, eot: int): Result<seq<int>> {
    if |tokens| > contextLength then
      if !truncate then Err(TooLong(text, contextLength))
      else if contextLength == 0 then Err(MissingEntry)
      else Ok(tokens[..contextLength - 1] + [eot])
    else Ok(tokens + Zeros(contextLength - |tokens|))
  }

  /** tokenize for a list of texts: one row per text, the first failing row raises. */
  function TokenizeAll(tk: Tokenizer, length: nat, texts: seq<string>, contextLength: nat, truncate: bool, placeholder: bool): Result<seq<seq<int>>> {
    if |texts| == 0 then Ok([])
    else
      var row :- Fit(Wrapped(tk, length, texts[0], placeholder), texts[0], contextLength, truncate, tk.eot);
      var rest :- TokenizeAll(tk, length, texts[1..], contextLength, truncate, placeholder);
      Ok([row] + rest)
  }

  /** The `texts` argument: a single string or a list. */
  datatype Texts = One(text: string) | Many(texts: seq<string>)

  function AsList(t: Texts): (r: seq<string>)
    ensures t.One? ==> r == [t.text]
    ensures t.Many? ==> r == t.texts
  {
    match t
    case One(s) => [s]
    case Many(ts) => ts
  }

  function Tokenize(tk: Tokenizer, length: nat, texts: Texts, contextLength: nat, truncate: bool, placeholder: bool): Result<seq<seq<int>>> {
    TokenizeAll(tk, length, AsList(texts), contextLength, truncate, placeholder)
  }

  /** A single string is tokenised as a one-element list: one row, present
      exactly when its wrapped tokens fit. */
  lemma TokenizeOne(tk: Tokenizer, length: nat, text: string, contextLength: nat, truncate: bool, placeholder: bool)
    ensures var r := Tokenize(tk, length, One(text), contextLength, truncate, placeholder);
      && (r.Ok? <==> Fits(Wrapped(tk, length, text, placeholder), contextLength, truncate))
      && (r.Ok? ==> |r.value| == 1 && IsRow(r.value[0], Wrapped(tk, length, text, placeholder), contextLength, tk.eot))
  {
    TokenizeSpec(tk, length, [text], contextLength, truncate, placeholder);
  }

  /** Whether a token list can be fitted into `contextLength`. */
  predicate Fits(tokens: seq<int>, contextLength: nat, truncate: bool) {
    |tokens| <= contextLength || (truncate && 0 < contextLength)
  }

  /** The row a fitting token list becomes: itself followed by zeros, or, when
      too long, its first `contextLength - 1` tokens and the end marker. */
  predicate IsRow(row: seq<int>, tokens: seq<int>, contextLength: nat, eot: int) {
    && |row| == contextLength
    && (|tokens| <= contextLength ==>
          row[..|tokens|] == tokens && forall i :: |tokens| <= i < contextLength ==> row[i] == 0)
    && (0 < contextLength < |tokens| ==>
          row[..contextLength - 1] == tokens[..contextLength - 1] && row[contextLength - 1] == eot)
  }

  /** Text `i` is the first whose wrapped tokens exceed the context length. */
  predicate FirstTooLong(tk: Tokenizer, length: nat, texts: seq<string>, placeholder: bool, contextLength: nat, i: int) {
    && 0 <= i < |texts|
    && |Wrapped(tk, length, texts[i], placeholder)| > contextLength
    && forall k :: 0 <= k < i ==> |Wrapped(tk, length, texts[k], placeholder)| <= contextLength
  }

  /** tokenize succeeds exactly when every text fits; then it returns one row
      per text, each exactly `contextLength` long; without truncation the error
      names the first text that does not fit. */
  lemma {:induction false} TokenizeSpec(tk: Tokenizer, length: nat, texts: seq<string>, contextLength: nat, truncate: bool, placeholder: bool)
    ensures var r := TokenizeAll(tk, length, texts, contextLength, truncate, placeholder);
      && (r.Ok? <==> forall i :: 0 <= i < |texts| ==> Fits(Wrapped(tk, length, texts[i], placeholder), contextLength, truncate))
      && (r.Ok? ==> |r.value| == |texts| && forall i :: 0 <= i < |texts| ==>
            IsRow(r.value[i], Wrapped(tk, length, texts[i], placeholder), contextLength, tk.eot))
      && (r.Err? && !truncate ==>
            exists i :: FirstTooLong(tk, length, texts, placeholder, contextLength, i) && r.error == TooLong(texts[i], contextLength))
  {
    if |texts| > 0 {
      TokenizeSpec(tk, length, texts[1..], contextLength, truncate, placeholder);
      var w := Wrapped(tk, length, texts[0], placeholder);
      var r := TokenizeAll(tk, length, texts, contextLength, truncate, placeholder);
      var rest := TokenizeAll(tk, length, texts[1..], contextLength, truncate, placeholder);
      assert forall i :: 1 <= i < |texts| ==> texts[i] == texts[1..][i - 1];
      if Fits(w, contextLength, truncate) {
        var row := Fit(w, texts[0], contextLength, truncate, tk.eot).value;
        assert IsRow(row, w, contextLength, tk.eot);
        if rest.Err? && !truncate {
          var i :| FirstTooLong(tk, length, texts[1..], placeholder, contextLength, i) && rest.error == TooLong(texts[1..][i], contextLength);
          assert r.error == TooLong(texts[i + 1], contextLength);
          assert FirstTooLong(tk, length, texts, placeholder, contextLength, i + 1);
        }
        if r.Ok? {
          assert r.value == [row] + rest.value;
        }
      } else {
        assert r.Err?;
      }
    }
  }

  /** In placeholder mode the texts themselves are ignored: any two lists of the
      same size tokenise alike (up to the text an error names). */
  lemma {:induction false} PlaceholderIgnoresText(tk: Tokenizer, length: nat, a: seq<string>, b: seq<string>, contextLength: nat, truncate: bool)
    requires |a| == |b|
    ensures var ra := TokenizeAll(tk, length, a, contextLength, truncate, true);
      var rb := TokenizeAll(tk, length, b, contextLength, truncate, true);
      && (ra.Ok? <==> rb.Ok?)
      && (ra.Ok? ==> ra.value == rb.value)
  {
    if |a| > 0 {
      PlaceholderIgnoresText(tk, length, a[1..], b[1..], contextLength, truncate);
    }
  }

  /** In placeholder mode every row is the same: the fitted tokens of the
      placeholder followed by " object". */
  lemma {:induction false} PlaceholderRowsAgree(tk: Tokenizer, length: nat, texts: seq<string>, contextLength: nat, truncate: bool)
    requires TokenizeAll(tk, length, texts, contextLength, truncate, true).Ok?
    ensures var rows := TokenizeAll(tk, length, texts, contextLength, truncate, true).value;
      forall i :: 0 <= i < |rows| ==>
        IsRow(rows[i], [tk.sot] + tk.encode(PromptText(length)) + [tk.eot], contextLength, tk.eot)
        && rows[i] == rows[0]
  {
    TokenizeSpec(tk, length, texts, contextLength, truncate, true);
    var rows := TokenizeAll(tk, length, texts, contextLength, truncate, true).value;
    forall i | 0 <= i < |rows| ensures rows[i] == rows[0] {
      RowsOfFixedTokens(tk, length, texts, contextLength, truncate, i);
    }
  }

  /** Row `i` of a placeholder-mode result is the fitted placeholder tokens. */
  lemma {:induction false} RowsOfFixedTokens(tk: Tokenizer, length: nat, texts: seq<string>, contextLength: nat, truncate: bool, i: nat)
    requires TokenizeAll(tk, length, texts, contextLength, truncate, true).Ok?
    requires i < |texts|
    ensures |TokenizeAll(tk, length, texts, contextLength, truncate, true).value| == |texts|
    ensures TokenizeAll(tk, length, texts, contextLength, truncate, true).value[i]
         == Fit(Wrapped(tk, length, "", true), "", contextLength, truncate, tk.eot).value
  {
    TokenizeSpec(tk, length, texts, contextLength, truncate, true);
    if i > 0 {
      RowsOfFixedTokens(tk, length, texts[1..], contextLength, truncate, i - 1);
    }
  }

  /** `text.replace('_', ' ')`. */
  function ReplaceUnderscores(text: string): (r: string)
    ensures |r| == |text|
    ensures forall i :: 0 <= i < |text| ==> r[i] == (if text[i] == '_' then ' ' else text[i])
    ensures '_' !in r
  {
    if |text| == 0 then ""
    else [if text[0] == '_' then ' ' else text[0]] + ReplaceUnderscores(text[1..])
  }

  /** The normal and abnormal sentences for the class names: one state template
      and one outer template each, so one sentence per class name per state. */
  function Sentences(texts: seq<string>): (r: (seq<string>, seq<string>))
    ensures |r.0| == |texts| && |r.1| == |texts|
    ensures forall k :: 0 <= k < |texts| ==>
      && r.0[k] == "normal " + ReplaceUnderscores(texts[k])
      && r.1[k] == "abnormal " + ReplaceUnderscores(texts[k])
  {
    (seq(|texts|, k requires 0 <= k < |texts| => "normal " + ReplaceUnderscores(texts[k])),
     seq(|texts|, k requires 0 <= k < |texts| => "abnormal " + ReplaceUnderscores(texts[k])))
  }

  /** The two token batches encode_text builds: the normal and the abnormal
      sentences, tokenised in placeholder mode at context length 77 without
      truncation. */
  function StateTokens(tk: Tokenizer, length: nat, texts: seq<string>): (Result<seq<seq<int>>>, Result<seq<seq<int>>>) {
    var (normal, abnormal) := Sentences(texts);
    (TokenizeAll(tk, length, normal, ContextLength, false, true),
     TokenizeAll(tk, length, abnormal, ContextLength, false, true))
  }

  /** The normal and abnormal batches are token-for-token identical: the state
      reaches the model only through the prompt tokens. Both succeed exactly when
      there are no class names or the wrapped placeholder prompt fits in 77
      tokens, with one row per class name. */
  lemma StatesShareTokens(tk: Tokenizer, length: nat, texts: seq<string>)
    ensures var (n, a) := StateTokens(tk, length, texts);
      && (n.Ok? <==> a.Ok?)
      && (n.Ok? <==> (|texts| == 0 || |Wrapped(tk, length, "", true)| <= ContextLength))
      && (n.Ok? ==> n.value == a.value && |n.value| == |texts|)
  {
    var (normal, abnormal) := Sentences(texts);
    PlaceholderIgnoresText(tk, length, normal, abnormal, ContextLength, false);
    TokenizeSpec(tk, length, normal, ContextLength, false, true);
    if |texts| > 0 {
      assert Wrapped(tk, length, normal[0], true) == Wrapped(tk, length, "", true);
    }
  }
}

=== FILE: text_prompt.dfy ===
/** The text prompt injector (MutilPrompt_TextPromptLayer) and the text
    encoder's loop over prompt ids (MVPS.encode_text): splices an L-token window
    right after the start token and records the injected blocks in a replay
    buffer. */
module TextPrompt {
  import opened Tokens

  /** Which prompt types the `prompting_type` string switches on ('S', 'D'). */
  datatype Kind = StaticOnly | DynamicOnly | Both | Neither

  function KindOf(promptingType: string): (k: Kind)
    ensures (k == Both || k == StaticOnly) <==> 'S' in promptingType
    ensures (k == Both || k == DynamicOnly) <==> 'D' in promptingType
  {
    if 'S' in promptingType && 'D' in promptingType then Both
    else if 'S' in promptingType then StaticOnly
    else if 'D' in promptingType then DynamicOnly
    else Neither
  }

  /** Construction-time settings: enabled flag, prompt length L, prompt depth,
      number of prompt ids, prompt kind, the learnable layer-0 blocks indexed
      `[state][prompt_id]` and the static blocks indexed `[prompt_id][layer - 1]`
      (empty when static prompts were not provisioned). */
  datatype Config = Config(
    enabled: bool,
    length: nat,
    depth: nat,
    promptNum: nat,
    kind: Kind,
    learnable: seq<seq<seq<Tok>>>,
    statics: seq<seq<seq<Tok>>>)

  /** Per-forward attributes: the dynamic blocks indexed `[prompt_id]`, the
      first-layer dynamic blocks indexed `[state][prompt_id]`, and the replay
      buffer `memory_prompt`. Unset tables are empty. */
  datatype State = State(dynamic: seq<seq<Tok>>, firstDynamic: seq<seq<seq<Tok>>>, memory: seq<seq<Tok>>)

  function Initial(): (st: State)
    ensures |st.memory| == 0 && |st.dynamic| == 0 && |st.firstDynamic| == 0
  {
    State([], [], [])
  }

  /** reset_memory_prompt: empties the buffer and touches nothing else. */
  function ResetMemory(st: State): (r: State)
    ensures |r.memory| == 0
    ensures r.dynamic == st.dynamic && r.firstDynamic == st.firstDynamic
  {
    st.(memory := [])
  }

  /** Every prompt block held by the prompter has the prompt length. */
  ghost predicate BlocksValid(c: Config, st: State) {
    && (forall s, p :: 0 <= s < |c.learnable| && 0 <= p < |c.learnable[s]| ==> |c.learnable[s][p]| == c.length)
    && (forall p, j :: 0 <= p < |c.statics| && 0 <= j < |c.statics[p]| ==> |c.statics[p][j]| == c.length)
    && (forall p :: 0 <= p < |st.dynamic| ==> |st.dynamic[p]| == c.length)
    && (forall s, p :: 0 <= s < |st.firstDynamic| && 0 <= p < |st.firstDynamic[s]| ==> |st.firstDynamic[s][p]| == c.length)
  }

  /** Tensor addition of two prompt blocks along the length axis, with
      broadcasting of a length-1 operand. */
  function AddBlocks(a: seq<Tok>, b: seq<Tok>): (r: Result<seq<Tok>>)
    ensures r.Ok? <==> |a| == |b| || |a| == 1 || |b| == 1
    ensures r.Ok? ==> |r.value| == (if |a| == 1 then |b| else |a|)
    ensures r.Ok? ==> forall i :: 0 <= i < |r.value| ==>
      r.value[i] == Sum(a[if |a| == 1 then 0 else i], b[if |b| == 1 then 0 else i])
  {
    if |a| == |b| then Ok(seq(|a|, i requires 0 <= i < |a| => Sum(a[i], b[i])))
    else if |a| == 1 then Ok(seq(|b|, i requires 0 <= i < |b| => Sum(a[0], b[i])))
    else if |b| == 1 then Ok(seq(|a|, i requires 0 <= i < |a| => Sum(a[i], b[0])))
    else Err(ShapeMismatch)
  }

  /** The context block of a layer `0 < indx < depth` for a prompt id. */
  function Context(c: Config, st: State, indx: nat, promptId: nat): Result<seq<Tok>>
    requires 0 < indx
  {
    match c.kind
    case Both =>
      var d :- At(st.dynamic, promptId);
      var s :- At2(c.statics, promptId, indx - 1);
      AddBlocks(d, s)
    case StaticOnly => At2(c.statics, promptId, indx - 1)
    case DynamicOnly => At(st.dynamic, promptId)
    case Neither => Err(NoPromptKind)
  }

  /** Under valid blocks a successful context has the prompt length. */
  lemma ContextLength(c: Config, st: State, indx: nat, promptId: nat)
    requires 0 < indx && BlocksValid(c, st) && Context(c, st, indx, promptId).Ok?
    ensures |Context(c, st, indx, promptId).value| == c.length
  {
  }

  /** `x[:1] ++ block ++ x[1 + L:]`: the window after the start token is replaced. */
  function Splice(length: nat, x: seq<Tok>, block: seq<Tok>): seq<Tok> {
    Slice(x, 0, 1) + block + Slice(x, 1 + length, |x|)
  }

  /** Splicing an L-token block keeps position 0 and everything from `1 + L` on,
      and puts the block at positions `1 .. 1 + L`. */
  lemma SpliceWindow(length: nat, x: seq<Tok>, block: seq<Tok>)
    requires 1 + length <= |x| && |block| == length
    ensures var y := Splice(length, x, block);
      && |y| == |x|
      && y[0] == x[0]
      && y[1..1 + length] == block
      && y[1 + length..] == x[1 + length..]
      && forall i :: 0 <= i < |x| && !(1 <= i < 1 + length) ==> y[i] == x[i]
  {
    SliceInRange(x, 0, 1);
    SliceInRange(x, 1 + length, |x|);
    var y := Splice(length, x, block);
    assert y == x[..1] + block + x[1 + length..];
  }

  /** The injection of one enabled or disabled layer, before the transformer block. */
  function Inject(c: Config, st: State, indx: nat, promptId: nat, x: seq<Tok>, stateIdx: nat): Result<(State, seq<Tok>)> {
    if !c.enabled then Ok((st, x))
    else if indx == 0 then
      var f :- At2(st.firstDynamic, stateIdx, promptId);
      var l :- At2(c.learnable, stateIdx, promptId);
      var b :- AddBlocks(l, f);
      Ok((st, Splice(c.length, x, b)))
    else if indx < c.depth then
      var ctx :- Context(c, st, indx, promptId);
      Ok((st.(memory := st.memory + [ctx]), Splice(c.length, x, ctx)))
    else Ok((st, x))
  }

  /** The state after a call and the output of the transformer block, or the error. */
  datatype Step = Step(state: State, out: Result<seq<Tok>>)

  /** One call of the text prompter's forward. The buffer grows by the context
      block exactly at an enabled layer `0 < indx < depth` whose context exists,
      even when the missing transformer block then raises. */
  function Forward(c: Config, st: State, resblock: Option<Block>, indx: nat, promptId: nat, x: seq<Tok>, stateIdx: nat): (r: Step)
    ensures r.state.dynamic == st.dynamic && r.state.firstDynamic == st.firstDynamic
    ensures c.enabled && 0 < indx < c.depth && Context(c, st, indx, promptId).Ok? ==>
              r.state.memory == st.memory + [Context(c, st, indx, promptId).value]
    ensures !(c.enabled && 0 < indx < c.depth && Context(c, st, indx, promptId).Ok?) ==>
              r.state.memory == st.memory
    ensures resblock.None? ==> r.out.Err?
    ensures c.enabled && 0 < indx < c.depth && c.kind == Neither ==> r.out == Err(NoPromptKind)
  {
    match Inject(c, st, indx, promptId, x, stateIdx)
    case Err(e) => Step(st, Err(e))
    case Ok((st1, x1)) =>
      match resblock
      case None => Step(st1, Err(MissingResblock))
      case Some(f) => Step(st1, Ok(f(x1)))
  }

  /** A disabled prompter, or an enabled one past the prompt depth, hands the
      input unchanged to the transformer block. */
  lemma PassThrough(c: Config, st: State, f: Block, indx: nat, promptId: nat, x: seq<Tok>, stateIdx: nat)
    requires !c.enabled || (0 < indx && c.depth <= indx)
    ensures Forward(c, st, Some(f), indx, promptId, x, stateIdx) == Step(st, Ok(f(x)))
  {
  }

  /** An enabled layer below the depth (layer 0 included) replaces exactly the
      window `1 .. 1 + L`: with the learnable-plus-first-dynamic block at layer 0
      and with the context block later. */
  lemma InjectSplices(c: Config, st: State, indx: nat, promptId: nat, x: seq<Tok>, stateIdx: nat)
    requires c.enabled && (indx == 0 || indx < c.depth) && 1 + c.length <= |x| && BlocksValid(c, st)
    requires Inject(c, st, indx, promptId, x, stateIdx).Ok?
    ensures var y := Inject(c, st, indx, promptId, x, stateIdx).value.1;
      && |y| == |x|
      && y[0] == x[0]
      && y[1 + c.length..] == x[1 + c.length..]
      && (indx == 0 ==>
            y[1..1 + c.length] == AddBlocks(c.learnable[stateIdx][promptId], st.firstDynamic[stateIdx][promptId]).value)
      && (0 < indx ==> y[1..1 + c.length] == Context(c, st, indx, promptId).value)
  {
    if indx == 0 {
      var b := AddBlocks(c.learnable[stateIdx][promptId], st.firstDynamic[stateIdx][promptId]).value;
      SpliceWindow(c.length, x, b);
    } else {
      ContextLength(c, st, indx, promptId);
      SpliceWindow(c.length, x, Context(c, st, indx, promptId).value);
    }
  }

  /** The first `n` layers of one pass for a fixed prompt id, in order. */
  function RunLayers(c: Config, st: State, blocks: seq<Block>, n: nat, promptId: nat, x: seq<Tok>, stateIdx: nat): Step
    requires n <= |blocks|
  {
    if n == 0 then Step(st, Ok(x))
    else
      var prev := RunLayers(c, st, blocks, n - 1, promptId, x, stateIdx);
      match prev.out
      case Err(_) => prev
      case Ok(y) => Forward(c, prev.state, Some(blocks[n - 1]), n - 1, promptId, y, stateIdx)
  }

  /** The context of layer `j` for a prompt id, or nothing when it fails. */
  function ContextOr(c: Config, st: State, j: nat, promptId: nat): seq<Tok>
    requires 0 < j
  {
    match Context(c, st, j, promptId)
    case Ok(b) => b
    case Err(_) => []
  }

  /** The buffer entries of one pass through `k` layers: the contexts of layers
      `1 .. k - 1`. */
  function PassEntries(c: Config, st: State, promptId: nat, k: nat): (r: seq<seq<Tok>>)
    ensures |r| == if k == 0 then 0 else k - 1
    ensures forall i :: 0 <= i < |r| ==> r[i] == ContextOr(c, st, i + 1, promptId)
  {
    if k <= 1 then [] else PassEntries(c, st, promptId, k - 1) + [ContextOr(c, st, k - 1, promptId)]
  }

  function Min(a: nat, b: nat): nat {
    if a < b then a else b
  }

  /** A successful enabled pass through `n` layers appends the contexts of layers
      `1 .. min(n, depth) - 1` to the buffer, in layer order. */
  lemma {:induction false} PassMemory(c: Config, st: State, blocks: seq<Block>, n: nat, promptId: nat, x: seq<Tok>, stateIdx: nat)
    requires c.enabled && n <= |blocks|
    requires RunLayers(c, st, blocks, n, promptId, x, stateIdx).out.Ok?
    ensures var s := RunLayers(c, st, blocks, n, promptId, x, stateIdx).state;
      && s.dynamic == st.dynamic
      && s.memory == st.memory + PassEntries(c, st, promptId, Min(n, c.depth))
  {
    if n > 0 {
      var prev := RunLayers(c, st, blocks, n - 1, promptId, x, stateIdx);
      PassMemory(c, st, blocks, n - 1, promptId, x, stateIdx);
      var j := n - 1;
      if 0 < j < c.depth {
        assert Context(c, prev.state, j, promptId) == Context(c, st, j, promptId);
        assert Inject(c, prev.state, j, promptId, prev.out.value, stateIdx).Ok?;
        assert PassEntries(c, st, promptId, Min(n, c.depth))
            == PassEntries(c, st, promptId, Min(n - 1, c.depth)) + [ContextOr(c, st, j, promptId)];
      }
    }
  }

  /** The output of MVPS.encode_text before the final norm and projection. */
  datatype Encoded = Encoded(state: State, out: Result<seq<seq<Tok>>>)

  /** encode_text's loop from prompt id `from` on: each prompt id runs every
      layer, the sequence is carried over from one prompt id to the next without
      being reset, and each prompt id contributes its final sequence. */
  function RunPrompts(c: Config, st: State, blocks: seq<Block>, from: nat, x: seq<Tok>, stateIdx: nat): (r: Encoded)
    requires from <= c.promptNum
    ensures r.out.Ok? ==> |r.out.value| == c.promptNum - from
    ensures r.state.dynamic == st.dynamic && r.state.firstDynamic == st.firstDynamic
    decreases c.promptNum - from
  {
    if from == c.promptNum then Encoded(st, Ok([]))
    else
      var pass := RunLayers(c, st, blocks, |blocks|, from, x, stateIdx);
      assert pass.state.dynamic == st.dynamic && pass.state.firstDynamic == st.firstDynamic by {
        LayersKeepPrompts(c, st, blocks, |blocks|, from, x, stateIdx);
      }
      match pass.out
      case Err(e) => Encoded(pass.state, Err(e))
      case Ok(y) =>
        var rest := RunPrompts(c, pass.state, blocks, from + 1, y, stateIdx);
        match rest.out
        case Err(_) => rest
        case Ok(ys) => Encoded(rest.state, Ok([y] + ys))
  }

  /** Layers never change the dynamic prompt tables. */
  lemma {:induction false} LayersKeepPrompts(c: Config, st: State, blocks: seq<Block>, n: nat, promptId: nat, x: seq<Tok>, stateIdx: nat)
    requires n <= |blocks|
    ensures var s := RunLayers(c, st, blocks, n, promptId, x, stateIdx).state;
      s.dynamic == st.dynamic && s.firstDynamic == st.firstDynamic
  {
    if n > 0 {
      LayersKeepPrompts(c, st, blocks, n - 1, promptId, x, stateIdx);
    }
  }

  /** The buffer entries of the passes for prompt ids `from .. promptNum - 1`,
      each through `k` layers, in (prompt id, layer) order. */
  function Entries(c: Config, st: State, from: nat, k: nat): seq<seq<Tok>>
    requires from <= c.promptNum
    decreases c.promptNum - from
  {
    if from == c.promptNum then [] else PassEntries(c, st, from, k) + Entries(c, st, from + 1, k)
  }

  /** Start of row `a` in a row-major grid of width `w`, counted by rows. */
  function RowStart(a: nat, w: nat): nat {
    if a == 0 then 0 else w + RowStart(a - 1, w)
  }

  /** The row start is the product `a * w`. */
  lemma {:induction false} RowStartProduct(a: nat, w: nat)
    ensures RowStart(a, w) == a * w
  {
    if a > 0 {
      RowStartProduct(a - 1, w);
      assert a * w == w + (a - 1) * w;
    }
  }

  /** A later row starts at least one full row further on. */
  lemma {:induction false} RowStartGrows(a: nat, b: nat, w: nat)
    requires a < b
    ensures RowStart(a, w) + w <= RowStart(b, w)
  {
    if a + 1 < b {
      RowStartGrows(a, b - 1, w);
    }
  }

  /** The passes for prompt ids `from ..` together hold `promptNum - from` rows of `k - 1` entries. */
  lemma {:induction false} EntriesLength(c: Config, st: State, from: nat, k: nat)
    requires from <= c.promptNum && 1 <= k
    ensures |Entries(c, st, from, k)| == RowStart(c.promptNum - from, k - 1)
    decreases c.promptNum - from
  {
    if from < c.promptNum {
      EntriesLength(c, st, from + 1, k);
    }
  }

  /** Entry `j - 1` of row `p - from` is the context of layer `j` for prompt id `p`. */
  lemma {:induction false} EntriesAt(c: Config, st: State, from: nat, k: nat, p: nat, j: nat)
    requires from <= p < c.promptNum && 1 <= j < k
    ensures RowStart(p - from, k - 1) + (j - 1) < |Entries(c, st, from, k)|
    ensures Entries(c, st, from, k)[RowStart(p - from, k - 1) + (j - 1)] == ContextOr(c, st, j, p)
    decreases c.promptNum - from
  {
    var head := PassEntries(c, st, from, k);
    var tail := Entries(c, st, from + 1, k);
    assert Entries(c, st, from, k) == head + tail;
    if p > from {
      EntriesAt(c, st, from + 1, k, p, j);
      ConcatIndex(head, tail, RowStart(p - (from + 1), k - 1) + (j - 1));
    }
  }

  /** Indexing past the first part of a concatenation reads the second part. */
  lemma ConcatIndex<T>(a: seq<T>, b: seq<T>, i: nat)
    requires i < |b|
    ensures (a + b)[|a| + i] == b[i]
  {
  }

  /** A successful enabled encode_text appends, for each prompt id in turn, the
      contexts of layers `1 .. min(layers, depth) - 1`. */
  lemma {:induction false} PromptsMemory(c: Config, st: State, blocks: seq<Block>, from: nat, x: seq<Tok>, stateIdx: nat)
    requires c.enabled && from <= c.promptNum
    requires RunPrompts(c, st, blocks, from, x, stateIdx).out.Ok?
    ensures RunPrompts(c, st, blocks, from, x, stateIdx).state.memory
            == st.memory + Entries(c, st, from, Min(|blocks|, c.depth))
    decreases c.promptNum - from
  {
    if from < c.promptNum {
      var pass := RunLayers(c, st, blocks, |blocks|, from, x, stateIdx);
      PassMemory(c, st, blocks, |blocks|, from, x, stateIdx);
      PromptsMemory(c, pass.state, blocks, from + 1, pass.out.value, stateIdx);
      EntriesDependOnPrompts(c, pass.state, st, from + 1, Min(|blocks|, c.depth));
    }
  }

  /** The entries depend on the state only through its dynamic prompt table. */
  lemma {:induction false} EntriesDependOnPrompts(c: Config, s1: State, s2: State, from: nat, k: nat)
    requires from <= c.promptNum && s1.dynamic == s2.dynamic
    ensures Entries(c, s1, from, k) == Entries(c, s2, from, k)
    decreases c.promptNum - from
  {
    if from < c.promptNum {
      EntriesDependOnPrompts(c, s1, s2, from + 1, k);
      assert PassEntries(c, s1, from, k) == PassEntries(c, s2, from, k);
    }
  }

  /** One full encode_text over at least `depth` layers appends
      `promptNum * (depth - 1)` entries, and entry `p * (depth - 1) + (j - 1)` is
      the context of layer `j` for prompt id `p`. */
  lemma EncodeTextBuffer(c: Config, st: State, blocks: seq<Block>, x: seq<Tok>, stateIdx: nat)
    requires c.enabled && 1 <= c.depth <= |blocks|
    requires RunPrompts(c, st, blocks, 0, x, stateIdx).out.Ok?
    ensures var m := RunPrompts(c, st, blocks, 0, x, stateIdx).state.memory;
      && |m| == |st.memory| + RowStart(c.promptNum, c.depth - 1)
      && m[..|st.memory|] == st.memory
      && forall p, j :: 0 <= p < c.promptNum && 1 <= j < c.depth ==>
           && Context(c, st, j, p).Ok?
           && m[|st.memory| + Slot(p, j, c.promptNum, c.depth - 1)] == Context(c, st, j, p).value
  {
    PromptsMemory(c, st, blocks, 0, x, stateIdx);
    EntriesLength(c, st, 0, c.depth);
    var m := RunPrompts(c, st, blocks, 0, x, stateIdx).state.memory;
    var e := Entries(c, st, 0, c.depth);
    assert m == st.memory + e;
    assert m[..|st.memory|] == st.memory;
    forall p, j | 0 <= p < c.promptNum && 1 <= j < c.depth
      ensures Context(c, st, j, p).Ok?
      ensures m[|st.memory| + Slot(p, j, c.promptNum, c.depth - 1)] == Context(c, st, j, p).value
    {
      EntriesAt(c, st, 0, c.depth, p, j);
      ContextsSucceed(c, st, blocks, 0, x, stateIdx, p, j);
      ConcatIndex(st.memory, e, Slot(p, j, c.promptNum, c.depth - 1));
    }
  }

  /** Row-major position of layer `j` (counted from 1) of prompt id `p` in a
      buffer of `n` passes of `w` entries each. */
  function Slot(p: nat, j: nat, n: nat, w: nat): (i: nat)
    requires p < n && 1 <= j <= w
    ensures i < RowStart(n, w)
  {
    RowStartGrows(p, n, w);
    RowStart(p, w) + (j - 1)
  }

  /** The slot is the row-major index `p * w + (j - 1)` inside the `n * w` grid. */
  lemma SlotIsRowMajor(p: nat, j: nat, n: nat, w: nat)
    requires p < n && 1 <= j <= w
    ensures Slot(p, j, n, w) == p * w + (j - 1) < n * w
  {
    RowStartProduct(p, w);
    RowStartProduct(n, w);
  }

  /** In a successful enabled encode_text over at least `depth` layers every
      context of the later prompt ids was computed without error. */
  lemma {:induction false} ContextsSucceed(c: Config, st: State, blocks: seq<Block>, from: nat, x: seq<Tok>, stateIdx: nat, p: nat, j: nat)
    requires c.enabled && c.depth <= |blocks| && from <= p < c.promptNum && 1 <= j < c.depth
    requires RunPrompts(c, st, blocks, from, x, stateIdx).out.Ok?
    ensures Context(c, st, j, p).Ok?
    decreases c.promptNum - from
  {
    var pass := RunLayers(c, st, blocks, |blocks|, from, x, stateIdx);
    if p == from {
      LayerContextSucceeds(c, st, blocks, |blocks|, from, x, stateIdx, j);
    } else {
      LayersKeepPrompts(c, st, blocks, |blocks|, from, x, stateIdx);
      ContextsSucceed(c, pass.state, blocks, from + 1, pass.out.value, stateIdx, p, j);
      assert Context(c, pass.state, j, p) == Context(c, st, j, p);
    }
  }

  /** A successful pass through `n` layers computed the context of every layer `0 < j < min(n, depth)`. */
  lemma {:induction false} LayerContextSucceeds(c: Config, st: State, blocks: seq<Block>, n: nat, promptId: nat, x: seq<Tok>, stateIdx: nat, j: nat)
    requires c.enabled && n <= |blocks| && 0 < j < n && j < c.depth
    requires RunLayers(c, st, blocks, n, promptId, x, stateIdx).out.Ok?
    ensures Context(c, st, j, promptId).Ok?
  {
    var prev := RunLayers(c, st, blocks, n - 1, promptId, x, stateIdx);
    LayersKeepPrompts(c, st, blocks, n - 1, promptId, x, stateIdx);
    assert Context(c, prev.state, j, promptId) == Context(c, st, j, promptId);
    if j < n - 1 {
      LayerContextSucceeds(c, st, blocks, n - 1, promptId, x, stateIdx, j);
    }
  }
}

=== FILE: tokens.dfy ===
/** Shared vocabulary of the model: abstract tokens, the errors the core raises,
    a failure-compatible result type and Python's slicing rule. */
module Tokens {

  /** One position along a transformer sequence axis, with the batch and channel
      axes abstracted away. `Sum` stands for the element-wise addition of two
      prompt vectors, which the prompters perform on learnable and dynamic blocks. */
  datatype Tok = Emb(id: int) | Sum(left: Tok, right: Tok)

  /** A residual attention block of the frozen backbone: an opaque map over
      hidden-state sequences. */
  type Block = seq<Tok> -> seq<Tok>

  /** Transformer blocks keep the sequence length. */
  ghost predicate LengthPreserving(f: Block) {
    forall s :: |f(s)| == |s|
  }

  /** The failures the core raises. */
  datatype Error =
    | TooLong(text: string, contextLength: nat)  // tokenizer: input does not fit the context window
    | MissingResblock                            // text prompter called without a transformer block
    | NoPromptKind                               // neither static nor dynamic prompts configured
    | BadClusterSchedule                         // constructor: the last schedule entry is not positive
    | MissingEntry                               // lookup in a prompt table or list that is too short or unset
    | UnboundContext                             // visual layer 0 with no static context computed
    | ShapeMismatch                              // tensors whose shapes cannot be combined
    | TooFewSamples                              // fewer selected tokens than clusters
    | NonPositiveClusters                        // a forward-time cluster count that topk and KMeans reject

  datatype Option<+T> = None | Some(value: T)

  datatype Result<+T> = Ok(value: T) | Err(error: Error) {
    predicate IsFailure() {
      Err?
    }

    function PropagateFailure<U>(): Result<U>
      requires Err?
    {
      Err(error)
    }

    function Extract(): T
      requires Ok?
    {
      value
    }
  }

  /** Element `i` of a list, failing like Python's indexing when it is absent. */
  function At<T>(s: seq<T>, i: nat): Result<T> {
    if i < |s| then Ok(s[i]) else Err(MissingEntry)
  }

  /** Element `[i][j]` of a two-level table. */
  function At2<T>(s: seq<seq<T>>, i: nat, j: nat): Result<T> {
    var row :- At(s, i);
    At(row, j)
  }

  /** Python's normalisation of a slice bound against a length `n`: a negative
      bound counts from the end, and the result is clamped to `0 .. n`. */
  function Clamp(i: int, n: nat): (k: nat)
    ensures k <= n
    ensures 0 <= i <= n ==> k == i
    ensures i < 0 && 0 <= n + i ==> k == n + i
    ensures n + i < 0 ==> k == 0
    ensures n < i ==> k == n
  {
    if i < 0 then (if i + n < 0 then 0 else i + n)
    else if i > n then n
    else i
  }

  /** Python's `s[start:stop]`. */
  function Slice<T>(s: seq<T>, start: int, stop: int): (r: seq<T>)
    ensures |r| <= |s|
  {
    var i := Clamp(start, |s|);
    var j := Clamp(stop, |s|);
    if i < j then s[i..j] else []
  }

  /** In-range bounds give Dafny's own subsequence. */
  lemma SliceInRange<T>(s: seq<T>, start: int, stop: int)
    requires 0 <= start <= stop <= |s|
    ensures Slice(s, start, stop) == s[start..stop]
  {
  }

  /** A stop bound below zero cuts that many elements off the end, or
      everything when it reaches past the front. */
  lemma SliceNegativeStop<T>(s: seq<T>, stop: int)
    requires stop < 0
    ensures 0 <= |s| + stop ==> Slice(s, 0, stop) == s[..|s| + stop]
    ensures |s| + stop < 0 ==> Slice(s, 0, stop) == []
  {
  }

  /** Applies a token-wise map to every position of a block. */
  function MapToks(f: Tok -> Tok, b: seq<Tok>): (r: seq<Tok>)
    ensures |r| == |b|
    ensures forall i :: 0 <= i < |b| ==> r[i] == f(b[i])
  {
    seq(|b|, i requires 0 <= i < |b| => f(b[i]))
  }
}

=== FILE: visual_prompt.dfy ===
/** The visual prompt injector (PromptLayer.forward_visual): a per-layer state
    machine that appends, rotates and strips two L-token prompt blocks at the end
    of the visual transformer's sequence. */
module VisualPrompt {
  import opened Tokens

  /** Construction-time settings: whether the visual branch is prompted, the
      prompt length L, the prompt depth, and the static prompt blocks (one per
      prompted layer; empty when static prompts were not provisioned). */
  datatype Config = Config(enabled: bool, length: nat, depth: nat, statics: seq<seq<Tok>>)

  /** The static prompt table as the constructor builds it. */
  ghost predicate Valid(c: Config) {
    && (|c.statics| == c.depth || |c.statics| == 0)
    && forall i :: 0 <= i < |c.statics| ==> |c.statics[i]| == c.length
  }

  /** The prompter's mutable attributes: the last prompt id seen, the scale-layer
      counter, and the scale prompts installed by the orchestrator, indexed
      `[prompt_id][layer]`. */
  datatype State = State(promptId: nat, promptLayerId: nat, scale: seq<seq<seq<Tok>>>)

  /** Every installed scale block has the prompt length. */
  ghost predicate ScaleValid(c: Config, st: State) {
    forall p, j :: 0 <= p < |st.scale| && 0 <= j < |st.scale[p]| ==> |st.scale[p][j]| == c.length
  }

  /** A freshly constructed prompter: the counter starts at 1, the stored prompt
      id at 0, and no scale prompt is installed yet. */
  function Initial(): (st: State)
    ensures st.promptLayerId == 1 && st.promptId == 0 && |st.scale| == 0
  {
    State(0, 1, [])
  }

  /** `x[0 : len(x) - L]` followed by a fresh block: the last L positions are replaced. */
  function ReplaceLast(x: seq<Tok>, length: nat, block: seq<Tok>): seq<Tok> {
    Slice(x, 0, |x| - length) + block
  }

  /** The static-prompt half of a layer: append at layer 0, replace the last L
      tokens at layers below the depth, leave deeper layers alone. */
  function StaticStep(c: Config, indx: nat, x: seq<Tok>): Result<seq<Tok>> {
    if indx < c.depth && |c.statics| <= indx then Err(MissingEntry)
    else if indx == 0 then
      (if indx < c.depth then Ok(x + c.statics[0]) else Err(UnboundContext))
    else if indx < c.depth then Ok(ReplaceLast(x, c.length, c.statics[indx]))
    else Ok(x)
  }

  /** A call with a new prompt id restarts the scale counter. */
  function Retarget(st: State, promptId: nat): (r: State)
    ensures r.promptId == promptId && r.scale == st.scale
    ensures st.promptId != promptId ==> r.promptLayerId == 0
    ensures st.promptId == promptId ==> r == st
  {
    if st.promptId != promptId then st.(promptId := promptId, promptLayerId := 0) else st
  }

  /** The scale-prompt half of a layer: append `scale[0][0]` at layer 0; at
      later layers replace the last L tokens with the next scale block while the
      counter is below `depth - 1`, advancing the counter. */
  function ScaleStep(c: Config, st: State, indx: nat, x: seq<Tok>): (State, Result<seq<Tok>>) {
    if indx == 0 then
      (st, var b :- At2(st.scale, 0, 0); Ok(x + b))
    else if st.promptLayerId < c.depth - 1 then
      match At2(st.scale, st.promptId, st.promptLayerId)
      case Ok(b) => (st.(promptLayerId := st.promptLayerId + 1), Ok(ReplaceLast(x, c.length, b)))
      case Err(e) => (st, Err(e))
    else (st, Ok(x))
  }

  /** Both prompt updates of one enabled layer, in source order: the static block
      first, then the prompt-id check, then the scale block. */
  function Inject(c: Config, st: State, indx: nat, promptId: nat, x: seq<Tok>): (State, Result<seq<Tok>>) {
    match StaticStep(c, indx, x)
    case Err(e) => (st, Err(e))
    case Ok(x1) => ScaleStep(c, Retarget(st, promptId), indx, x1)
  }

  /** What a layer hands back: the raw post-attention sequence that feeds the
      next layer, and the clean tokens returned to the caller. */
  datatype Layer = Layer(raw: seq<Tok>, clean: seq<Tok>)

  /** The state after the call (also after a failure: Python keeps attribute
      updates made before the exception) and the outcome. */
  datatype Step = Step(state: State, out: Result<Layer>)

  /** One call of forward_visual. */
  function Forward(c: Config, st: State, resblock: Block, indx: nat, promptId: nat, x: seq<Tok>): Step {
    if !c.enabled then
      var y := resblock(x);
      Step(st, Ok(Layer(y, y)))
    else
      var (st1, r) := Inject(c, st, indx, promptId, x);
      match r
      case Err(e) => Step(st1, Err(e))
      case Ok(x2) =>
        var y := resblock(x2);
        Step(st1, Ok(Layer(y, Slice(y, 0, |y| - 2 * c.length))))
  }

  /** A layer never changes the installed scale prompts, even when it fails. */
  lemma ForwardKeepsScale(c: Config, st: State, resblock: Block, indx: nat, promptId: nat, x: seq<Tok>)
    ensures Forward(c, st, resblock, indx, promptId, x).state.scale == st.scale
  {
  }

  /** Disabled prompter: nothing is added, raw equals clean, state untouched. */
  lemma DisabledPassThrough(c: Config, st: State, resblock: Block, indx: nat, promptId: nat, x: seq<Tok>)
    requires !c.enabled && LengthPreserving(resblock)
    ensures var r := Forward(c, st, resblock, indx, promptId, x);
      && r.state == st && r.out.Ok?
      && r.out.value.raw == r.out.value.clean
      && |r.out.value.raw| == |x|
  {
  }

  /** Layer 0 succeeds exactly when a static block for layer 0 and the scale
      block `scale[0][0]` exist. */
  lemma FirstLayerSucceeds(c: Config, st: State, resblock: Block, promptId: nat, x: seq<Tok>)
    requires c.enabled
    ensures Forward(c, st, resblock, 0, promptId, x).out.Ok?
        <==> 0 < c.depth && 0 < |c.statics| && 0 < |st.scale| && 0 < |st.scale[0]|
  {
  }

  /** Layer 0 appends the static block and then `scale[0][0]`, whatever the prompt id. */
  lemma FirstLayerAppends(c: Config, st: State, promptId: nat, x: seq<Tok>)
    requires Inject(c, st, 0, promptId, x).1.Ok?
    ensures Inject(c, st, 0, promptId, x).1.value == x + c.statics[0] + st.scale[0][0]
    ensures Inject(c, st, 0, promptId, x).0 == Retarget(st, promptId)
  {
  }

  /** Layer 0 grows the raw sequence by 2L; the clean tokens are the raw
      sequence without its trailing 2L, so they have the input's length. */
  lemma FirstLayerLength(c: Config, st: State, resblock: Block, promptId: nat, x: seq<Tok>)
    requires c.enabled && Valid(c) && ScaleValid(c, st) && LengthPreserving(resblock)
    requires Forward(c, st, resblock, 0, promptId, x).out.Ok?
    ensures var l := Forward(c, st, resblock, 0, promptId, x).out.value;
      && |l.raw| == |x| + 2 * c.length
      && l.clean == l.raw[..|x|]
  {
    FirstLayerAppends(c, st, promptId, x);
    var l := Forward(c, st, resblock, 0, promptId, x).out.value;
    SliceInRange(l.raw, 0, |l.raw| - 2 * c.length);
  }

  /** The counter as it stands after the prompt-id check of a call. */
  function CounterAfterCheck(st: State, promptId: nat): nat {
    if st.promptId != promptId then 0 else st.promptLayerId
  }

  /** The scale block is replaced at a later layer exactly when the (possibly
      reset) counter is below `depth - 1`. */
  predicate ScaleFires(c: Config, st: State, indx: nat, promptId: nat) {
    0 < indx && CounterAfterCheck(st, promptId) < c.depth - 1
  }

  /** Counter bookkeeping of a successful layer: the stored prompt id becomes the
      argument, the counter restarts at 0 on a new prompt id and advances by
      exactly one when the scale block is replaced; the installed scale prompts
      are never changed by a layer. */
  lemma CounterStep(c: Config, st: State, indx: nat, promptId: nat, x: seq<Tok>)
    requires Inject(c, st, indx, promptId, x).1.Ok?
    ensures var s := Inject(c, st, indx, promptId, x).0;
      && s.promptId == promptId
      && s.scale == st.scale
      && s.promptLayerId == CounterAfterCheck(st, promptId) + (if ScaleFires(c, st, indx, promptId) then 1 else 0)
  {
  }

  /** Layer 1 with prompt id 0 at layers 0 and 1 (layer 1 is not an output
      layer) and a depth of at least 3. A fresh prompter (counter 1, prompt id
      0) keeps its counter through layer 0, so layer 1 installs `scale[0][1]`.
      A prompter whose stored prompt id is not 0 is reset, and layer 1 installs
      `scale[0][0]`. `x1` is whatever layer 1 receives. */
  lemma LayerOneScaleBlock(c: Config, st: State, x0: seq<Tok>, x1: seq<Tok>)
    requires Valid(c) && ScaleValid(c, st) && 2 < c.depth && c.length <= |x1|
    requires Inject(c, Inject(c, st, 0, 0, x0).0, 1, 0, x1).1.Ok?
    ensures var y := Inject(c, Inject(c, st, 0, 0, x0).0, 1, 0, x1).1.value;
      && (st == Initial().(scale := st.scale) ==> y[|x1| - c.length..] == st.scale[0][1])
      && (st.promptId != 0 ==> y[|x1| - c.length..] == st.scale[0][0])
  {
    var s0 := Inject(c, st, 0, 0, x0).0;
    assert s0.scale == st.scale;
    LaterLayerWindow(c, s0, 1, 0, x1);
  }

  /** A counter standing at `depth - 1` or above never fires while the prompt
      id stays the stored one: each later layer below the depth lays its static
      block over the last L positions and the state does not change. */
  lemma StuckCounterKeepsStatic(c: Config, st: State, indx: nat, x: seq<Tok>)
    requires Valid(c) && |c.statics| == c.depth && 0 < indx < c.depth && c.length <= |x|
    requires c.depth - 1 <= st.promptLayerId
    ensures var (s, r) := Inject(c, st, indx, st.promptId, x);
      && s == st && r.Ok?
      && |r.value| == |x|
      && r.value[..|x| - c.length] == x[..|x| - c.length]
      && r.value[|x| - c.length..] == c.statics[indx]
  {
    SliceInRange(x, 0, |x| - c.length);
  }

  /** The counter never climbs past `depth - 1` unless it already stood higher. */
  lemma CounterBounded(c: Config, st: State, indx: nat, promptId: nat, x: seq<Tok>)
    ensures var s := Inject(c, st, indx, promptId, x).0;
      s.promptLayerId <= st.promptLayerId || s.promptLayerId <= c.depth - 1
  {
  }

  /** At a later layer the sequence keeps its prefix and only its last L
      positions change: to the scale block when the scale update fires (it lands
      on the same window as, and so overwrites, a fresh static block), else to
      the static block below the depth, else they stay as they were. */
  lemma LaterLayerWindow(c: Config, st: State, indx: nat, promptId: nat, x: seq<Tok>)
    requires 0 < indx && c.length <= |x| && Valid(c) && ScaleValid(c, st)
    requires Inject(c, st, indx, promptId, x).1.Ok?
    ensures var y := Inject(c, st, indx, promptId, x).1.value;
      && |y| == |x|
      && y[..|x| - c.length] == x[..|x| - c.length]
      && y[|x| - c.length..] ==
           (if ScaleFires(c, st, indx, promptId) then st.scale[promptId][CounterAfterCheck(st, promptId)]
            else if indx < c.depth then c.statics[indx]
            else x[|x| - c.length..])
  {
    var x1 := StaticStep(c, indx, x).value;
    if indx < c.depth {
      SliceInRange(x, 0, |x| - c.length);
      assert x1 == x[..|x| - c.length] + c.statics[indx];
    }
    assert |x1| == |x| && x1[..|x| - c.length] == x[..|x| - c.length];
    var st1 := Retarget(st, promptId);
    if ScaleFires(c, st, indx, promptId) {
      SliceInRange(x1, 0, |x1| - c.length);
      assert x1[..|x1| - c.length] == x[..|x| - c.length];
    }
  }

  /** A later layer keeps the raw length, and the clean tokens drop the trailing 2L. */
  lemma LaterLayerLength(c: Config, st: State, resblock: Block, indx: nat, promptId: nat, x: seq<Tok>)
    requires c.enabled && 0 < indx && c.length <= |x| && Valid(c) && ScaleValid(c, st)
    requires LengthPreserving(resblock)
    requires Forward(c, st, resblock, indx, promptId, x).out.Ok?
    ensures var l := Forward(c, st, resblock, indx, promptId, x).out.value;
      && |l.raw| == |x|
      && (2 * c.length <= |x| ==> l.clean == l.raw[..|x| - 2 * c.length])
  {
    LaterLayerWindow(c, st, indx, promptId, x);
    var l := Forward(c, st, resblock, indx, promptId, x).out.value;
    if 2 * c.length <= |x| {
      SliceInRange(l.raw, 0, |l.raw| - 2 * c.length);
    }
  }
}
